=== FILE: README.md ===
# Poll dashboard — a Dafny model of its server logic

This project models the logic of a small polling application. Users register or sign in
with email and password, Google or GitHub. Signed-in users create polls. Administrators
see analytics and download the results as CSV. The pages add translations in four
languages.

The model replaces the relational store with an in-memory `Db`: four sequences of users,
polls, options and votes, each timestamped in integer milliseconds. Every route and
helper becomes a pure function from its inputs and the store to a response and, where it
writes, a new store.

Some things are not modelled as computation. They become parameters instead:

- bcrypt hashing and comparison;
- zod's email test;
- id generation and the clock;
- `toISOString`;
- the translation file imports;
- whether a query fails.

Modules, one per component:

| file | component |
|---|---|
| `wrappers.dfy` | `Option`, JavaScript truthiness of optional strings |
| `text.dfy` | `trim`, `split`/`join` on one character, decimal numerals |
| `seq_util.dfy` | `where` (Filter/Count), `orderBy createdAt` (stable sort), `take`/`skip` |
| `json.dfy` | parsed request bodies |
| `store.dfy` | the schema entities, the store, shared lookups |
| `utils.dfy` | `getClientIP`, `formatPercentage`, `validateEmail`, `validatePassword` |
| `csv.dfy` | quoting of RFC 4180 section 2 (rules 6 and 7), and a reader that inverts it |
| `export.dfy` | the admin CSV export |
| `polls_route.dfy` | poll creation schema, `POST` and `GET` of the polls route |
| `poll_draft.dfy` | the poll-creation page's option editor and submit gate |
| `register.dfy` | the registration schema and route, and the body the registration page sends |
| `retry.dfy` | `withRetry` |
| `auth.dfy` | credentials `authorize`, the `jwt`, `session` and `redirect` callbacks |
| `analytics.dfy` | the admin analytics route |
| `db_utils.dfy` | `dbUtils` query helpers |
| `setup_admin.dfy` | the hard-coded admin promotion route |
| `env.dfy` | `getAuthConfig` |
| `translations.dfy` | the translation function `t` |
| `language.dfy` | initial language, `changeLanguage` in both variants, translation loading |

The CSV export departs from RFC 4180 in three ways:

- Lines are joined with a bare LF, not CRLF.
- There is no trailing line break.
- Ids, dates, flags and counts are written unquoted.

The model reproduces all three. Title, description and option text are always quoted,
whether or not they contain a comma or a quote.

Where the design description and the code disagree, the model follows the code:

- **Analytics ordering.** The analytics `topPolls` are the five most recently created
  polls, not the five with the most votes (`Analytics.TopPollsNotByVotes`).
- **Empty `NEXTAUTH_URL`.** With `NEXTAUTH_URL` set to the empty string and `NODE_ENV`
  neither development nor production, `baseUrl` is that empty string, not undefined
  (`Env.BaseUrlDefinedIff`).
- **CSV quoting.** Text columns are quoted unconditionally, not only when they contain
  a delimiter.

## Model

| member | source | states |
|---|---|---|
| Text.Trim | lib/utils.ts:19 | the result is a contiguous piece of the input with only white space (ECMAScript white space and line terminators) cut from either end, starts and ends with a non-space character, and is empty exactly when the input is all white space |
| Text.JoinSplit | app/api/admin/export/route.ts:61 | splitting on a character and joining the pieces with it gives back the original string |
| Text.SplitJoin | lib/tolgee-optimized.tsx:125 | joining separator-free pieces and splitting again gives back the pieces |
| Text.NatToStringRoundTrip | app/api/admin/export/route.ts:44 | `toString()` of a count is a digit string whose decimal value is the count |
| SeqUtil.SortDesc | app/api/admin/export/route.ts:28-30 | `orderBy createdAt desc` returns a permutation of its input, ordered by non-increasing key |
| SeqUtil.PrefixOfSortedIsNewest | app/api/admin/analytics/route.ts:49-55 | a `take` of a newest-first listing keeps only entries at least as new as every entry it drops |
| SeqUtil.CountSnoc | app/api/admin/analytics/route.ts:30-45 | a filtered count grows by one for an appended row exactly when the row satisfies the filter |
| Store.FindUserUnique | lib/db-optimized.ts:39-50 | with unique emails, the lookup by email returns the user holding that email |
| Utils.GetClientIP | lib/utils.ts:14-27 | a non-empty forwarded header gives a comma-free, trimmed address; otherwise a non-empty real-IP header is returned verbatim; otherwise `unknown` |
| Utils.ForwardedForWins | lib/utils.ts:15-20 | with a non-empty forwarded header the real-IP header is ignored, and the result is the trimmed text before the first comma |
| Utils.BlankForwardedForGivesEmptyAddress | lib/utils.ts:18-19 | a forwarded header holding only a space is truthy and yields an empty address rather than the real IP |
| Utils.FormatPercentage | lib/utils.ts:29-32 | 0 when the total is 0; otherwise the integer nearest to 100·value/total, halves rounded up |
| Utils.PercentageInRange | lib/utils.ts:31 | for 0 ≤ value ≤ total with total > 0 the percentage lies in [0,100] and is 100 when value = total |
| Utils.PercentageMonotonic | lib/utils.ts:31 | for a fixed positive total, a larger value never gives a smaller percentage |
| Utils.ValidateEmailMatchesPattern | lib/utils.ts:44-47 | `validateEmail` accepts exactly: no white space, one `@` with a non-empty local part, and a domain holding a `.` that is neither its first nor its last character |
| Csv.UnescapeEscape | app/api/admin/export/route.ts:40-41 | undoubling the doubled quotes of a text recovers the text |
| Csv.EscapeUnescape | app/api/admin/export/route.ts:40-41 | every well-formed escaped text is the escape of its undoubling |
| Csv.EncodeField | app/api/admin/export/route.ts:40-41 | a quoted field starts and ends with `"` and its inside undoubles to the text |
| Csv.ReadEncodedRecord | app/api/admin/export/route.ts:48-56 | reading back a comma-joined line of quoted fields and safe bare fields gives back exactly those fields |
| Export.ExportPolls | app/api/admin/export/route.ts:15-31 | one record per poll, newest first, each with its own vote count |
| Export.RecordOf | app/api/admin/export/route.ts:15-27 | a record carries its poll's columns, the poll's total, and its options as the store holds them, each with its own count |
| Export.ExportRecordsAreStorePolls | app/api/admin/export/route.ts:15-31 | the records are the store's polls, each exactly once: some rearrangement of the polls gives each record its own poll |
| Export.OptionRows | app/api/admin/export/route.ts:50-55 | one row per option in option order, with that option's text and vote count |
| Export.Get | app/api/admin/export/route.ts:8-12 | 401 exactly for a missing or non-admin session; 200 with `text/csv` content exactly for an admin when the query succeeds |
| Export.LineCount | app/api/admin/export/route.ts:35-61 | the export has 1 + Σ max(1, #options) lines |
| Export.PollLinesPosition | app/api/admin/export/route.ts:37-58 | the lines of the k-th poll sit contiguously after the lines of the polls before it |
| Export.OptionLinesReadBack | app/api/admin/export/route.ts:50-57 | a poll with options contributes one line per option, and each reads back as the six base fields, then the quoted option text, then its count |
| Export.EmptyPollLineReadsBack | app/api/admin/export/route.ts:47-48 | a poll with no options contributes one line: its base fields, an empty field and `0` |
| Export.TextColumnsReadBack | app/api/admin/export/route.ts:40-41 | title and description are quoted fields; an absent description is written as `""` |
| Export.BaseFieldsWellFormed | app/api/admin/export/route.ts:38-45 | the id, date, `Yes`/`No` and count columns need no quoting when id and date are free of commas, quotes and line breaks |
| Export.ContentSplitsIntoLines | app/api/admin/export/route.ts:61 | splitting the body on LF gives back the header and rows, 1 + Σ max(1, #options) of them, with no trailing empty line |
| Export.ContentStartsWithHeader | app/api/admin/export/route.ts:35 | the body starts with the header line, followed by LF when there are rows |
| PollsRoute.ParsePollInput | app/api/polls/route.ts:7-13 | a body is accepted exactly when title is a non-empty string, description is absent or a string, and options is an array of at least two non-empty strings; the fields are taken unchanged |
| PollsRoute.ParseEncodedInput | app/api/polls/route.ts:7-13 | every admissible input survives encoding as a body and parsing back |
| PollsRoute.BlankTextsPassValidation | app/api/polls/route.ts:8-11 | the server trims nothing: a blank title and blank options are accepted |
| PollsRoute.NewPoll | app/api/polls/route.ts:55-66 | the created poll is active, has the given title and description, and has one option per input text, in order |
| PollsRoute.CreatePoll | app/api/polls/route.ts:44-83 | 401 exactly without a session, with no change; 400 exactly for an invalid body; 500 exactly for a non-JSON body or a failed write; otherwise the rows built from the parsed input (active, the given title and description, one option per text in order) are added to the store |
| PollsRoute.CreatedPollIsListed | app/api/polls/route.ts:55-66 | a created poll is stored active with the description sent, or none when none was sent, and the next listing of the route shows it |
| PollsRoute.ActivePolls | app/api/polls/route.ts:17-31 | the listing is a permutation of the active polls, newest first, each carrying its options in store order, every option's vote count and the poll's total |
| PollsRoute.ListPolls | app/api/polls/route.ts:15-42 | the active listing when the query succeeds; the 500 answer exactly when it throws |
| PollsRoute.ListedIffActive | app/api/polls/route.ts:18 | a poll is listed exactly when it is in the store and active |
| PollDraft.InitialDraft | app/polls/create/page.tsx:12-14 | the draft starts with an empty title and description and four options |
| PollDraft.AddOption | app/polls/create/page.tsx:36-38 | appends one empty option and keeps the others |
| PollDraft.RemoveOption | app/polls/create/page.tsx:40-44 | with more than two options it deletes exactly the one at the index; otherwise nothing changes |
| PollDraft.UpdateOption | app/polls/create/page.tsx:46-50 | changes only the option at the index and keeps the length |
| PollDraft.AddNewOption | app/polls/create/page.tsx:181-205 | appends the trimmed input when it is non-empty, and otherwise changes nothing |
| PollDraft.Submit | app/polls/create/page.tsx:52-79 | a blank title is rejected first, then fewer than two non-blank options; a payload is sent exactly when both checks pass, with the trimmed title and description and exactly the non-blank options, untrimmed, in their original order |
| PollDraft.PayloadAcceptedByServer | app/polls/create/page.tsx:75-79 | a draft with a non-blank title and at least two non-blank options is submitted, and its payload passes the server's schema unchanged |
| PollDraft.NeverFewerThanTwo | app/polls/create/page.tsx:36-50 | from at least two options, any sequence of edits leaves at least two |
| Register.ParseRegistration | app/api/auth/register/route.ts:19-29 | accepted exactly when name is non-empty, email passes the email check, password has at least six characters, and confirmPassword is present and equal to password |
| Register.Post | app/api/auth/register/route.ts:31-84 | 500 for a body that is not JSON; 400 for invalid input; then 500 when the lookup throws; 400 for a taken email; 500 when hashing or the insert throws; otherwise 201 with exactly one user added (role USER, hashed password) and a response without the password; the store changes only on 201 |
| Register.PostAllKeepsEmailsUnique | app/api/auth/register/route.ts:39-60 | any sequence of registrations keeps emails unique in the store |
| Register.MissingConfirmationRejected | app/api/auth/register/route.ts:19-29 | a body without confirmPassword gets 400 and changes nothing |
| Register.ValidatePasswordIsSchemaRule | lib/utils.ts:49-51 | the shared password validator and the schema's `min(6)` agree: a body whose other fields pass is accepted exactly when the validator accepts its password |
| Register.PageCheckMatchesSchema | app/auth/register/page.tsx:40-45 | the page's own length check lets a form through exactly when the schema would accept its confirmed body, for a form with a name and a valid email |
| Register.PageRegistrationAlwaysRejected | app/auth/register/page.tsx:53-57 | the body the page sends is refused with 400, whatever the form holds |
| Register.CorrectedPageRegistrationAccepted | app/auth/register/page.tsx:53-57 | with the confirmation sent, a valid form with a new email registers exactly that user, or answers 500 and stores nothing when the store or the hashing throws |
| Retry.WithRetry | lib/auth.ts:19-44 | at most maxRetries + 1 calls; the result is the first success; a failure comes only after every attempt failed and is the last error |
| Retry.FlakyOutcome | lib/auth.ts:26-34 | an operation that fails its first f attempts succeeds exactly when f ≤ maxRetries, after f + 1 calls |
| Auth.Authorize | lib/auth.ts:116-170 | null unless email and password are given, the lookup succeeds within its retries, the user exists and has a password, and the password checks; on success exactly the stored user's id, email, name, role and image |
| Auth.Jwt | lib/auth.ts:180-236 | a signed-in user's id and role are copied into the token; without an OAuth provider and an email, or when the OAuth lookup fails after its retries, the token is exactly that copy and the store is unchanged; only an OAuth sign-in with an email may change the store, and only by adding a user for an email not yet stored |
| Auth.OAuthCreateIfAbsent | lib/auth.ts:191-227 | an OAuth sign-in creates a USER exactly when no user has the email, and the token's id and role are the stored user's |
| Auth.JwtKeepsEmailsUnique | lib/auth.ts:197-222 | OAuth sign-in never stores a second user with the same email |
| Auth.Session | lib/auth.ts:237-310 | the session starts from defaults with role USER; promotion to ADMIN of store, token and session happens exactly when the store has one user, with the token's email, not yet admin, and the block succeeds within its retries |
| Auth.PromotionIdempotent | lib/auth.ts:276-298 | running the callback again after it succeeded changes nothing more |
| Auth.SessionDefaults | lib/auth.ts:243-251 | with no session user and an empty token the session user is the default with role USER |
| Auth.Redirect | lib/auth.ts:321-325 | the redirect target is the base URL followed by `/` |
| Auth.RedirectIgnoresUrl | lib/auth.ts:321-325 | the requested URL never influences the redirect |
| Analytics.Get | app/api/admin/analytics/route.ts:6-83 | 401 exactly without an admin session; 500 with no payload exactly when a query fails; otherwise the table sizes, the active, 7-day and 30-day counts, and the newest polls with their own vote counts |
| Analytics.NewestPolls | app/api/admin/analytics/route.ts:49-55 | at most five distinct store polls (a sub-multiset of the store), newest first, and none left out is newer than one kept |
| Analytics.OverviewWithinTotals | app/api/admin/analytics/route.ts:24-45 | active polls, recent votes and new users never exceed their table sizes |
| Analytics.RecentWindowInclusive | app/api/admin/analytics/route.ts:30-36 | a vote exactly 604 800 000 ms old counts as recent; one a millisecond older does not |
| Analytics.GrowthWindowInclusive | app/api/admin/analytics/route.ts:39-45 | a user exactly 2 592 000 000 ms old counts as new; one a millisecond older does not |
| Analytics.TopPollsNotByVotes | app/api/admin/analytics/route.ts:49-55 | an older poll with more votes is listed after a newer poll with none |
| DbUtils.FindUserByEmail | lib/db-optimized.ts:39-50 | null exactly when no user has the email; with unique emails, the selected columns of the user holding it |
| DbUtils.FindPollWithVotes | lib/db-optimized.ts:53-70 | null exactly for an unknown id; otherwise the poll with its vote count and its own options, oldest first, each with its vote count |
| DbUtils.FoundPollHasItsOptions | lib/db-optimized.ts:56-64 | a stored poll is found, and an option appears in the result exactly when it belongs to that poll |
| DbUtils.FindManyPolls | lib/db-optimized.ts:73-84 | positions [skip, skip + take) of the polls ordered newest first, defaults 10 and 0, each with its vote count |
| DbUtils.EarlierPagesAreNewer | lib/db-optimized.ts:73-84 | every poll on a page is at least as new as every poll on a later page |
| DbUtils.PagesTile | lib/db-optimized.ts:73-84 | two consecutive pages together are the page of twice the size |
| DbUtils.GetAdminStats | lib/db-optimized.ts:87-117 | the totals are the table sizes; the recent polls are the ten newest, each with its own vote count |
| DbUtils.RecentPollsAreFirstPage | lib/db-optimized.ts:92-103 | the dashboard's recent polls are the first page of the polls listing with its defaults |
| DbUtils.TopPollsPrefixRecentPolls | lib/db-optimized.ts:92-103 | the analytics top polls are the first entries of the dashboard's recent polls |
| SetupAdmin.Setup | app/api/setup-admin/route.ts:19-64 | an unknown target gives success false and no change; an admin target gives "already an admin" and no change; otherwise only the target's role becomes ADMIN; a store failure gives 500 |
| SetupAdmin.OnlyTargetChanges | app/api/setup-admin/route.ts:44-54 | a promotion changes the target's role and nothing else in the store |
| SetupAdmin.Idempotent | app/api/setup-admin/route.ts:35-54 | a second call reports "already an admin" and changes nothing |
| SetupAdmin.OnlyTargetRead | app/api/setup-admin/route.ts:22-25 | two stores that agree on the hard-coded email's row get the same answer |
| Env.GetAuthConfig | lib/env.ts:1-34 | a non-empty NEXTAUTH_URL wins; otherwise development gives localhost:3001, production gives https:// + VERCEL_URL, else NEXT_PUBLIC_APP_URL, else the placeholder; any other mode keeps NEXTAUTH_URL as it was |
| Env.NeverBothModes | lib/env.ts:2-3 | development and production are never both flagged |
| Env.BaseUrlDefinedIff | lib/env.ts:6-18 | the base URL is non-empty exactly when NEXTAUTH_URL is non-empty or the mode is development or production |
| Env.ConfiguredUrlWins | lib/env.ts:6-8 | a non-empty NEXTAUTH_URL is the base URL whatever NODE_ENV and VERCEL_URL say |
| Translations.Resolve | lib/tolgee-optimized.tsx:125-135 | an empty path stays at the value; a missing first segment or a non-object gives nothing |
| Translations.ResolveDescend | lib/tolgee-optimized.tsx:127-129 | when a path leads to an object holding a segment, the path extended by that segment finds the value stored under it, at any depth |
| Translations.ResolveAppend | lib/tolgee-optimized.tsx:125-135 | following `p + q` is following `p` and then `q` from where it led, and fails when `p` fails, so a missing segment or a non-object at any depth gives nothing |
| Translations.T | lib/tolgee-optimized.tsx:123-148 | the key itself unless the dotted path resolves to a string; that string unchanged without parameters, interpolated with them |
| Translations.LookupDottedPath | lib/tolgee.tsx:74-99 | the dotted form of a path of dot-free segments returns the string stored there |
| Translations.MissingKeyFallsBack | lib/tolgee.tsx:79-85 | a key whose first segment is absent returns the key |
| Translations.SectionKeyFallsBack | lib/tolgee-optimized.tsx:137-147 | a key naming an object rather than a string returns the key |
| Translations.InterpolateIdentity | lib/tolgee.tsx:88-95 | with no truthy parameter every `{{name}}` stays literally in place |
| Translations.InterpolateWithoutBraces | lib/tolgee-optimized.tsx:139-142 | a string without `{` is returned unchanged whatever the parameters |
| Translations.InterpolatePrefix | lib/tolgee-optimized.tsx:139-142 | text without `{` before any suffix is copied unchanged and the suffix is interpolated as if it stood alone, so a placeholder after plain text is replaced like one at the start |
| Translations.ReplaceAfterText | lib/tolgee-optimized.tsx:139-142 | in plain text followed by `{{name}}` with a truthy parameter, the text is kept and the placeholder becomes the parameter's text |
| Translations.PlaceholderStep | lib/tolgee-optimized.tsx:139-142 | at any placeholder `{{name}}` followed by any text, the scan emits the placeholder's replacement and resumes right after it |
| Translations.NoRescan | lib/tolgee-optimized.tsx:139-142 | for every name, truthy value and following text, the placeholder becomes the value's text verbatim, which is not rescanned for further placeholders |
| Translations.FalsyParamKeepsPlaceholder | lib/tolgee-optimized.tsx:141 | for every name that is not an `Object.prototype` property and any following text, a missing or falsy parameter (empty string, zero, false) leaves its placeholder literally in place |
| Language.InitialLanguage | lib/tolgee-optimized.tsx:29-35 | the saved language when in a browser and supported, otherwise English; always a supported language |
| Language.ChangeLanguage | lib/tolgee-optimized.tsx:91-98 | state changes only for a supported language other than the current one, which becomes current and is saved |
| Language.ChangeLanguageLegacy | lib/tolgee.tsx:104-111 | any supported language, the current one included, becomes current and is saved; others are ignored |
| Language.VariantsAgreeOnLanguage | lib/tolgee.tsx:104-111 | both variants select the same language, and it stays supported |
| Language.VariantsDifferOnStorage | lib/tolgee-optimized.tsx:92 | re-selecting the current language rewrites local storage only in the older hook |
| Language.ChoiceSurvivesReload | lib/tolgee-optimized.tsx:29-35 | a language chosen in the browser is the one the next page load starts with |
| Language.LocaleFile | lib/tolgee-optimized.tsx:50-65 | a supported language loads its own file; anything else loads English |
| Language.Load | lib/tolgee-optimized.tsx:40-89 | a cached language is reused unchanged; the cache only grows and never changes an entry; a successful import is cached under its language; after a failed import English is used, from the cache or freshly imported and then cached, and an empty dictionary when that import fails too |
| Language.LoadLegacy | lib/tolgee.tsx:37-68 | the language's file when its import succeeds; otherwise the English file, or an empty dictionary when that import fails too |
| Language.SecondLoadIsCached | lib/tolgee-optimized.tsx:43-46 | after a successful load, loading again returns the same translations whatever the imports now return |
| Language.FirstLoadMatchesLegacy | lib/tolgee.tsx:35-72 | with an empty cache the provider loads what the older hook loads |
| Language.CachedLoadsAgreeWithLegacy | lib/tolgee.tsx:35-72 | when every cached entry is what its file imports, the provider gives every language what the older hook loads, including a language whose import fails, which falls back to English in both |

## Left out

- Network, cookies and headers other than the two address headers, and the session lookup itself. The session is an input.
- `withTimeout` and the backoff delay with its random jitter. `withTimeout` races the database call against a timer and does not cancel it, so a timed-out `create` (lib/auth.ts:208-220) or `update` (lib/auth.ts:286-292) may still take effect, and a retry then runs against a store that already holds the write. The model treats every failed or timed-out attempt as leaving the store unchanged.
- Auth.Jwt: a failed OAuth user creation leaves the store unchanged. In the source a creation that timed out may still commit, so the store can hold the new user although the token did not get its id.
- Auth.Session: when the admin promotion fails or times out, the model keeps the store unchanged. In the source a timed-out `update` may still promote the user.
- The `Promise.all` fan-out of the analytics and admin-stats queries. Queries are modelled one after another. A failure is one flag, and it yields 500 with no payload.
- Check-then-insert races in registration and in OAuth user creation. The model is single-threaded.
- bcrypt (`hashPassword`, `verifyPassword`), zod's `.email()`, uuid, `Intl.DateTimeFormat` (`formatDate`), `cn` and `throttle`. The first three are function parameters; the rest play no part in the modelled logic.
- `toISOString` is a parameter. The CSV reading-back lemmas assume its output contains no comma, quote or line break.
- Export.ExportPolls: rows with equal `createdAt` keep store order, because the sort is stable. The source leaves their order to the database.
- PollsRoute.ActivePolls, Analytics.NewestPolls, DbUtils.FindManyPolls and DbUtils.GetAdminStats: polls with equal `createdAt` keep store order, for the same reason. Each query orders by `createdAt` alone, with no unique tie-breaker.
- DbUtils.PagesTile, DbUtils.RecentPollsAreFirstPage and DbUtils.TopPollsPrefixRecentPolls: these compare separate queries. They hold because every query here orders ties the same way. A database may order ties differently from one query to the next, so consecutive pages can overlap or skip a poll with a tied `createdAt`, and the ids of tied polls may differ between the dashboard and the analytics list.
- Export.RecordOf and PollsRoute.ListingOf: a poll's options are listed in store order. The export and the polls route set no `orderBy` on options, so the database may return them in any order.
- String lengths count Unicode code points, not UTF-16 code units, for zod's `min` and for `length`.
- Utils.FormatPercentage: models `Math.round(value / total * 100)` exactly, with halves rounded up. It does not model the floating-point error of the division.
- Translations.T: the dictionary is a finite map. JavaScript's `in` also finds inherited names such as `toString`, and arrays are objects the path may index into; neither is modelled. Non-integer numeric parameters are left out. Integers are written with all their digits, while `String(n)` uses exponent form (`1e+21`) from 10^21 in magnitude. Object and array parameters, which are truthy and render as `[object Object]` or their elements joined by commas, are not modelled. The parameter lookup `parameters[param]` also finds inherited `Object.prototype` names (`constructor`, `__proto__`, `toString`, `valueOf`, `hasOwnProperty`, …). These are truthy even when not passed, so `{{constructor}}` becomes the function's source text and `{{__proto__}}` becomes `[object Object]`; the model treats such a name like any other missing parameter.
- Translations.FalsyParamKeepsPlaceholder: holds only for names that are not `Object.prototype` properties. For those names the source replaces the placeholder with the inherited value.
- Language.InitialLanguage: `saved in languages` has the same inherited-name quirk, which is not modelled.
- Language.Load: a failed import is modelled by `files` returning `None`. The English fallback when the cache already holds English is modelled, but React's state updates and effect scheduling are not.
- The build-time configuration of `getAuthOptions`, used when the database client cannot be loaded, is not modelled. There `authorize` always returns null.
- The `signIn` callback always returns true and only logs. It is not modelled.
- The GitHub and Google client id and secret of `getAuthConfig` are copied from the environment as is.
- The React pages, apart from the poll-creation page's editor and submit gate and the registration page's request body and password check. They are rendering.
- `components/Stats.tsx` (floating-point `toFixed`), Toaster (timers and random ids), the thin single-query routes, the seed and make-admin scripts. The last duplicates the setup-admin route.
- The vote-submission and vote-check routes are not part of this model.

## Findings

| source | as written | input that shows it | evidently intended | confidence | as-written member | corrected member |
|---|---|---|---|---|---|---|
| app/auth/register/page.tsx:53-57 | the registration page posts `name`, `email` and `password` only, while the route's schema (app/api/auth/register/route.ts:24) requires `confirmPassword` | any form, e.g. name `A`, email `a@b.co`, password `secret1`: the route answers 400 "Validation error" and stores nothing | the page also sends `confirmPassword` equal to the password, so a valid form registers the user | not executed | Register.PageRegistrationAlwaysRejected | Register.CorrectedPageRegistrationAccepted |

=== FILE: analytics.dfy ===
/** `GET /api/admin/analytics`: the admin gate, the overview counts, the 7-day and 30-day
    windows, and the five most recent polls with their vote counts. The clock (`now`, in
    milliseconds) and `toISOString` (`iso`) are parameters; the six counting queries and
    the top-polls query either all succeed or the route answers 500 (`queryFails`). */
module Analytics {
  import opened Wrappers
  import opened SeqUtil
  import opened Store

  const DayMs: int := 24 * 60 * 60 * 1000
  /** The recent-activity window: 604 800 000 ms. */
  const WeekMs: int := 7 * DayMs
  /** The user-growth window: 2 592 000 000 ms. */
  const MonthMs: int := 30 * DayMs

  /** How many polls `topPolls` holds. */
  const TopCount: nat := 5

  datatype Overview = Overview(totalUsers: nat, totalPolls: nat, totalVotes: nat, activePolls: nat, recentActivity: nat)

  datatype TopPoll = TopPoll(id: string, title: string, votes: nat, createdAt: string)

  datatype Report = Report(overview: Overview, topPolls: seq<TopPoll>, newUsersLast30Days: nat)

  datatype AnalyticsResponse = Unauthorized | AnalyticsFailed | Analytics(report: Report) {
    function Status(): int {
      match this
      case Unauthorized => 401
      case AnalyticsFailed => 500
      case Analytics(_) => 200
    }
  }

  /** `createdAt: { gte: new Date(now - window) }`: the bound is included. */
  predicate Within(createdAt: int, now: int, window: int) {
    createdAt >= now - window
  }

  function RecentActivity(db: Db, now: int): (n: nat)
    ensures n <= |db.votes|
  {
    Count(db.votes, (v: Vote) => Within(v.createdAt, now, WeekMs))
  }

  function NewUsers(db: Db, now: int): (n: nat)
    ensures n <= |db.users|
  {
    Count(db.users, (u: User) => Within(u.createdAt, now, MonthMs))
  }

  function ActiveCount(db: Db): (n: nat)
    ensures n <= |db.polls|
  {
    Count(db.polls, (p: Poll) => p.isActive)
  }

  /** `findMany({ take: 5, orderBy: { createdAt: 'desc' } })`. */
  function NewestPolls(db: Db): (r: seq<Poll>)
    ensures |r| == if |db.polls| < TopCount then |db.polls| else TopCount
    ensures SortedDesc(r, PollCreatedAt)
    ensures forall i :: 0 <= i < |r| ==> r[i] in db.polls
    ensures multiset(r) <= multiset(db.polls)
    ensures forall p, i :: p in db.polls && p !in r && 0 <= i < |r| ==> r[i].createdAt >= p.createdAt
  {
    var sorted := SortDesc(db.polls, PollCreatedAt);
    TakeSorted(sorted, PollCreatedAt, TopCount);
    var r := Slice(sorted, 0, TopCount);
    assert forall p :: p in db.polls <==> p in sorted by {
      forall p ensures p in db.polls <==> p in sorted {
        assert p in db.polls <==> p in multiset(db.polls);
        assert p in sorted <==> p in multiset(sorted);
      }
    }
    assert forall i :: 0 <= i < |r| ==> r[i] in db.polls by {
      forall i | 0 <= i < |r| ensures r[i] in db.polls {
        assert r[i] in multiset(r);
      }
    }
    r
  }

  /** The newest polls are the first entries of all the polls sorted newest first. */
  lemma NewestPollsLeadSorted(db: Db)
    ensures var sorted := SortDesc(db.polls, PollCreatedAt);
            && |NewestPolls(db)| <= |sorted|
            && forall i :: 0 <= i < |NewestPolls(db)| ==> NewestPolls(db)[i] == sorted[i]
  {
    var sorted := SortDesc(db.polls, PollCreatedAt);
    assert NewestPolls(db) == Slice(sorted, 0, TopCount);
  }

  /** A `topPolls` entry: the poll's id and title, its own vote count, its timestamp. */
  function TopPollOf(db: Db, p: Poll, iso: int -> string): (t: TopPoll)
    ensures t.id == p.id && t.votes == PollVoteCount(db, p.id)
  {
    TopPoll(p.id, p.title, PollVoteCount(db, p.id), iso(p.createdAt))
  }

  function TopPolls(db: Db, iso: int -> string): (r: seq<TopPoll>)
    ensures |r| == |NewestPolls(db)|
    ensures forall i :: 0 <= i < |r| ==> r[i] == TopPollOf(db, NewestPolls(db)[i], iso)
  {
    var newest := NewestPolls(db);
    seq(|newest|, i requires 0 <= i < |newest| => TopPollOf(db, newest[i], iso))
  }

  /** `GET()`: 401 without an admin session, 500 when a query fails, and otherwise the
      report: the table sizes, the active-poll count, the two windowed counts and the
      newest polls, each with its own vote count. */
  function Get(session: Option<SessionUser>, db: Db, now: int, iso: int -> string, queryFails: bool): (r: AnalyticsResponse)
    ensures r == Unauthorized <==> !IsAdmin(session)
    ensures r == AnalyticsFailed <==> IsAdmin(session) && queryFails
    ensures r.Analytics? ==>
              && r.report.overview == Overview(|db.users|, |db.polls|, |db.votes|, ActiveCount(db), RecentActivity(db, now))
              && r.report.newUsersLast30Days == NewUsers(db, now)
              && |r.report.topPolls| <= TopCount
              && |r.report.topPolls| == |NewestPolls(db)|
              && forall i :: 0 <= i < |r.report.topPolls| ==> r.report.topPolls[i] == TopPollOf(db, NewestPolls(db)[i], iso)
  {
    if !IsAdmin(session) then Unauthorized
    else if queryFails then AnalyticsFailed
    else
      var overview := Overview(|db.users|, |db.polls|, |db.votes|, ActiveCount(db), RecentActivity(db, now));
      Analytics(Report(overview, TopPolls(db, iso), NewUsers(db, now)))
  }

  /** Every count of the overview stays within its table. */
  lemma OverviewWithinTotals(session: Option<SessionUser>, db: Db, now: int, iso: int -> string)
    requires IsAdmin(session)
    ensures var o := Get(session, db, now, iso, false).report.overview;
            o.activePolls <= o.totalPolls && o.recentActivity <= o.totalVotes
    ensures Get(session, db, now, iso, false).report.newUsersLast30Days <= |db.users|
  {
  }

  /** The windows include their bound: a vote cast exactly seven days before `now` raises
      the recent activity by one, and one cast a millisecond earlier does not. */
  lemma RecentWindowInclusive(db: Db, v: Vote, now: int)
    ensures v.createdAt == now - WeekMs ==> RecentActivity(db.(votes := db.votes + [v]), now) == RecentActivity(db, now) + 1
    ensures v.createdAt == now - WeekMs - 1 ==> RecentActivity(db.(votes := db.votes + [v]), now) == RecentActivity(db, now)
  {
    CountSnoc(db.votes, v, (v: Vote) => Within(v.createdAt, now, WeekMs));
  }

  /** The same for users and the thirty-day window. */
  lemma GrowthWindowInclusive(db: Db, u: User, now: int)
    ensures u.createdAt == now - MonthMs ==> NewUsers(db.(users := db.users + [u]), now) == NewUsers(db, now) + 1
    ensures u.createdAt == now - MonthMs - 1 ==> NewUsers(db.(users := db.users + [u]), now) == NewUsers(db, now)
  {
    CountSnoc(db.users, u, (u: User) => Within(u.createdAt, now, MonthMs));
  }

  /** The top polls are ordered by creation time and not by votes: an older poll with
      more votes is listed after a newer one with none. */
  lemma TopPollsNotByVotes(iso: int -> string)
    ensures var older := Poll("a", "Older", None, true, 1, None);
            var newer := Poll("b", "Newer", None, true, 2, None);
            var db := Db([], [older, newer], [], [Vote("v", "a", "o", None, None, None, 1)]);
            var top := TopPolls(db, iso);
            && |top| == 2
            && top[0].id == "b" && top[0].votes == 0
            && top[1].id == "a" && top[1].votes == 1
  {
    var older := Poll("a", "Older", None, true, 1, None);
    var newer := Poll("b", "Newer", None, true, 2, None);
    var db := Db([], [older, newer], [], [Vote("v", "a", "o", None, None, None, 1)]);
    var n := NewestPolls(db);
    assert n[0] in db.polls && n[1] in db.polls;
    assert n[0].createdAt >= n[1].createdAt;
    assert n[0] == newer && n[1] == older by {
      assert multiset(n) == multiset(db.polls) by {
        assert n == SortDesc(db.polls, PollCreatedAt);
      }
    }
    assert db.votes[0].pollId == "a";
    assert Filter(db.votes, (v: Vote) => v.pollId == "b") == [];
    assert Filter(db.votes, (v: Vote) => v.pollId == "a") == db.votes;
  }
}

=== FILE: auth.dfy ===
/** The authentication options of lib/auth.ts: the credentials `authorize` decision, the
    `jwt` callback's create-if-absent for OAuth sign-ins, the `session` callback's field
    copy and first-user promotion, and the `redirect` callback. Every database call is
    wrapped in `withRetry` with two retries; `*Failures` parameters say how many leading
    attempts of a call fail. Password checking (bcrypt) is the parameter `verify`. */
module Auth {
  import opened Wrappers
  import opened Store
  import opened Retry

  /** The retry bound lib/auth.ts passes to every `withRetry`. */
  const Retries: nat := 2

  datatype Credentials = Credentials(email: Option<string>, password: Option<string>)

  /** The user object `authorize` hands to NextAuth. */
  datatype AuthorizedUser = AuthorizedUser(id: string, email: string, name: Option<string>, role: Role, image: Option<string>)

  function AuthorizedFrom(u: User): AuthorizedUser {
    AuthorizedUser(u.id, u.email, u.name, u.role, u.image)
  }

  /** `authorize(credentials)`: `None` for `null`. Missing credentials, an unknown email,
      an account without a password (OAuth-only), a failed password check, and a lookup
      that still fails after its retries all give `None`. */
  function Authorize(credentials: Option<Credentials>, db: Db, lookupFailures: nat, verify: (string, string) -> bool): (r: Option<AuthorizedUser>)
    ensures r.Some? <==>
              && credentials.Some? && Truthy(credentials.value.email) && Truthy(credentials.value.password)
              && lookupFailures <= Retries
              && FindUser(db.users, credentials.value.email.value).Some?
              && Truthy(FindUser(db.users, credentials.value.email.value).value.password)
              && verify(credentials.value.password.value, FindUser(db.users, credentials.value.email.value).value.password.value)
    ensures r.Some? ==> exists u :: u in db.users && u.email == credentials.value.email.value && r.value == AuthorizedFrom(u)
  {
    if !(credentials.Some? && Truthy(credentials.value.email) && Truthy(credentials.value.password)) then None
    else
      var email := credentials.value.email.value;
      var lookup := WithRetry(Flaky(lookupFailures, FindUser(db.users, email)), Retries);
      FlakyOutcome(lookupFailures, FindUser(db.users, email), Retries);
      match lookup.0
      case Threw(_) => None
      case Done(found) =>
        if found.None? then None
        else if !Truthy(found.value.password) then None
        else if !verify(credentials.value.password.value, found.value.password.value) then None
        else Some(AuthorizedFrom(found.value))
  }

  /** The JWT NextAuth keeps between requests. */
  datatype Token = Token(id: Option<string>, role: Option<Role>, email: Option<string>, name: Option<string>, picture: Option<string>)

  /** The `user` argument of the `jwt` callback on sign-in; OAuth profiles carry no role. */
  datatype SignInUser = SignInUser(id: string, role: Option<Role>)

  datatype Account = Account(provider: string)

  predicate IsOAuth(account: Option<Account>) {
    account.Some? && (account.value.provider == "google" || account.value.provider == "github")
  }

  /** The user row an OAuth sign-in creates: role USER, no password. */
  function OAuthUser(t: Token, id: string, now: int): (u: User)
    requires Truthy(t.email)
    ensures u.role == UserRole && u.password.None? && u.email == t.email.value
  {
    User(id, t.email.value, t.name, None, t.picture, UserRole, now)
  }

  /** The sign-in copy at the top of `jwt`: with a signed-in user, the token takes that
      user's id and role; otherwise it is unchanged. */
  function SignInCopy(token: Token, user: Option<SignInUser>): (t: Token)
    ensures user.Some? ==> t.id == Some(user.value.id) && t.role == user.value.role
    ensures user.None? ==> t == token
    ensures t.email == token.email && t.name == token.name && t.picture == token.picture
  {
    if user.Some? then token.(role := user.value.role, id := Some(user.value.id)) else token
  }

  /** `jwt({ token, user, account })`: copies the signed-in user's id and role, then for a
      Google or GitHub sign-in with an email looks the user up and creates it (role USER)
      when absent, taking id and role from the stored row. A call that still fails after
      its retries is swallowed and leaves the token as it was. */
  function Jwt(token: Token, user: Option<SignInUser>, account: Option<Account>, db: Db,
               newId: string, now: int, findFailures: nat, createFailures: nat): (r: (Token, Db))
    ensures !IsOAuth(account) || !Truthy(token.email) ==> r.1 == db
    ensures r.1 == db || (r.1 == db.(users := db.users + [OAuthUser(token, newId, now)]) && FindUser(db.users, token.email.value).None?)
    ensures r.0.email == token.email && r.0.name == token.name && r.0.picture == token.picture
    ensures !(IsOAuth(account) && Truthy(token.email)) ==> r.0 == SignInCopy(token, user)
    ensures IsOAuth(account) && Truthy(token.email) && findFailures > Retries ==> r == (SignInCopy(token, user), db)
  {
    var t := SignInCopy(token, user);
    if !(IsOAuth(account) && Truthy(t.email)) then (t, db)
    else
      var email := t.email.value;
      var existing := FindUser(db.users, email);
      FlakyOutcome(findFailures, existing, Retries);
      match WithRetry(Flaky(findFailures, existing), Retries).0
      case Threw(_) => (t, db)
      case Done(found) =>
        if found.Some? then (t.(id := Some(found.value.id), role := Some(found.value.role)), db)
        else
          FlakyOutcome(findFailures, existing, Retries);
          var nu := OAuthUser(t, newId, now);
          match WithRetry(Flaky(createFailures, nu), Retries).0
          case Threw(_) => (t, db)
          case Done(created) =>
            FlakyOutcome(createFailures, nu, Retries);
            (t.(id := Some(created.id), role := Some(created.role)), db.(users := db.users + [created]))
  }

  /** For an OAuth sign-in whose calls succeed within their retries, a user is created
      (with role USER) exactly when none has the email, and the token's id and role are
      those of the stored user with that email. */
  lemma OAuthCreateIfAbsent(token: Token, user: Option<SignInUser>, account: Option<Account>, db: Db,
                            newId: string, now: int, findFailures: nat, createFailures: nat)
    requires IsOAuth(account) && Truthy(token.email)
    requires findFailures <= Retries && createFailures <= Retries
    ensures var (t, db') := Jwt(token, user, account, db, newId, now, findFailures, createFailures);
            && |db'.users| == |db.users| + (if FindUser(db.users, token.email.value).None? then 1 else 0)
            && FindUser(db'.users, token.email.value).Some?
            && t.id == Some(FindUser(db'.users, token.email.value).value.id)
            && t.role == Some(FindUser(db'.users, token.email.value).value.role)
            && (FindUser(db.users, token.email.value).None? ==> t.role == Some(UserRole))
  {
    var email := token.email.value;
    var existing := FindUser(db.users, email);
    FlakyOutcome(findFailures, existing, Retries);
    if existing.None? {
      var nu := OAuthUser(SignInCopy(token, user), newId, now);
      FlakyOutcome(createFailures, nu, Retries);
      var users' := db.users + [nu];
      assert users'[|db.users|] == nu;
      assert UserIndex(users', email) == Some(|db.users|);
    }
  }

  /** Neither sign-in path ever stores a second user with the same email. */
  lemma JwtKeepsEmailsUnique(token: Token, user: Option<SignInUser>, account: Option<Account>, db: Db,
                             newId: string, now: int, findFailures: nat, createFailures: nat)
    requires UniqueEmails(db.users)
    ensures UniqueEmails(Jwt(token, user, account, db, newId, now, findFailures, createFailures).1.users)
  {
    var db' := Jwt(token, user, account, db, newId, now, findFailures, createFailures).1;
    if db' != db {
      AddUserKeepsUnique(db.users, OAuthUser(token, newId, now));
    }
  }

  // ---------------------------------------------------------------------------
  // session callback

  const DefaultSessionUser: SessionUser := SessionUser("", "", "", "", UserRole)

  /** Copies every truthy token field over the session user. */
  function CopyTokenFields(s: SessionUser, token: Token): (r: SessionUser)
    ensures r.id == (if Truthy(token.id) then token.id.value else s.id)
    ensures r.name == (if Truthy(token.name) then token.name.value else s.name)
    ensures r.email == (if Truthy(token.email) then token.email.value else s.email)
    ensures r.image == (if Truthy(token.picture) then token.picture.value else s.image)
    ensures r.role == (if token.role.Some? then token.role.value else s.role)
  {
    SessionUser(
      if Truthy(token.id) then token.id.value else s.id,
      if Truthy(token.name) then token.name.value else s.name,
      if Truthy(token.email) then token.email.value else s.email,
      if Truthy(token.picture) then token.picture.value else s.image,
      if token.role.Some? then token.role.value else s.role)
  }

  /** Whether the bootstrap promotion applies: exactly one user in the store, holding the
      token's email, and not yet ADMIN. */
  predicate PromotionApplies(token: Token, db: Db) {
    && Truthy(token.email)
    && |db.users| == 1
    && db.users[0].email == token.email.value
    && db.users[0].role != AdminRole
  }

  /** `session({ session, token })`: starts from the default user when the session has
      none, copies the truthy token fields, then promotes the only user of the store to
      ADMIN (in the store, the token and the session). A block that still fails after its
      retries is swallowed. */
  function Session(sessionUser: Option<SessionUser>, token: Token, db: Db, failures: nat): (r: (SessionUser, Token, Db))
    ensures var promoted := PromotionApplies(token, db) && failures <= Retries;
            && (promoted ==> r.2 == db.(users := [db.users[0].(role := AdminRole)]) && r.1 == token.(role := Some(AdminRole))
                             && r.0 == CopyTokenFields(sessionUser.GetOr(DefaultSessionUser), token).(role := AdminRole))
            && (!promoted ==> r.2 == db && r.1 == token && r.0 == CopyTokenFields(sessionUser.GetOr(DefaultSessionUser), token))
  {
    var s := CopyTokenFields(sessionUser.GetOr(DefaultSessionUser), token);
    if !Truthy(token.email) then (s, token, db)
    else
      FlakyOutcome(failures, (), Retries);
      match WithRetry(Flaky(failures, ()), Retries).0
      case Threw(_) => (s, token, db)
      case Done(_) =>
        if |db.users| != 1 then (s, token, db)
        else
          match UserIndex(db.users, token.email.value)
          case None => (s, token, db)
          case Some(k) =>
            if db.users[k].role == AdminRole then (s, token, db)
            else
              (s.(role := AdminRole), token.(role := Some(AdminRole)), ReplaceUser(db, k, db.users[k].(role := AdminRole)))
  }

  /** Once the callback has run with its store calls succeeding, running it again on what
      it produced changes nothing more. */
  lemma PromotionIdempotent(sessionUser: Option<SessionUser>, token: Token, db: Db, failures: nat, failures2: nat)
    requires failures <= Retries
    ensures var (s1, t1, db1) := Session(sessionUser, token, db, failures);
            var (s2, t2, db2) := Session(Some(s1), t1, db1, failures2);
            db2 == db1 && t2 == t1 && s2.role == s1.role
  {
  }

  /** With no session user and an empty token the session is the default: role USER. */
  lemma SessionDefaults(db: Db, failures: nat)
    ensures Session(None, Token(None, None, None, None, None), db, failures).0 == DefaultSessionUser
  {
  }

  /** `redirect({ url, baseUrl })`: the site root, whatever was requested. */
  function Redirect(url: string, baseUrl: string): (r: string)
    ensures |r| == |baseUrl| + 1 && r[..|baseUrl|] == baseUrl && r[|baseUrl|] == '/'
  {
    baseUrl + "/"
  }

  lemma RedirectIgnoresUrl(url1: string, url2: string, baseUrl: string)
    ensures Redirect(url1, baseUrl) == Redirect(url2, baseUrl)
  {
  }
}

=== FILE: csv.dfy ===
/** Field and record encoding of section 2 of RFC 4180 as the export uses it: a quoted
    field is wrapped in double quotes with every embedded quote doubled (rules 6 and 7);
    fields are separated by commas (rule 4). The reader is the inverse used to state that
    nothing is lost. */
module Csv {
  import opened Wrappers

  const DQuote: char := '"'

  /** `text.replace(/"/g, '""')`: every double quote doubled. */
  function EscapeQuotes(s: string): (r: string)
    ensures |r| >= |s|
    ensures DQuote !in s ==> r == s
  {
    if |s| == 0 then ""
    else if s[0] == DQuote then [DQuote, DQuote] + EscapeQuotes(s[1..])
    else [s[0]] + EscapeQuotes(s[1..])
  }

  /** Reads doubled quotes back as one; a lone quote is malformed. */
  function UnescapeQuotes(s: string): Option<string>
  {
    if |s| == 0 then Some("")
    else if s[0] == DQuote then
      if |s| >= 2 && s[1] == DQuote then
        match UnescapeQuotes(s[2..])
        case None => None
        case Some(t) => Some([DQuote] + t)
      else None
    else
      match UnescapeQuotes(s[1..])
      case None => None
      case Some(t) => Some([s[0]] + t)
  }

  /** Undoubling the escaped text recovers the original. */
  lemma {:induction false} UnescapeEscape(s: string)
    ensures UnescapeQuotes(EscapeQuotes(s)) == Some(s)
  {
    if |s| > 0 {
      UnescapeEscape(s[1..]);
      assert [s[0]] + s[1..] == s;
      if s[0] == DQuote {
        assert EscapeQuotes(s)[2..] == EscapeQuotes(s[1..]);
      } else {
        assert EscapeQuotes(s)[1..] == EscapeQuotes(s[1..]);
      }
    }
  }

  /** Every text that reads back is the escaping of what it reads back to: escaping is
      onto the well-formed quoted contents. */
  lemma {:induction false} EscapeUnescape(e: string)
    requires UnescapeQuotes(e).Some?
    ensures EscapeQuotes(UnescapeQuotes(e).value) == e
  {
    if |e| > 0 {
      if e[0] == DQuote {
        EscapeUnescape(e[2..]);
        assert [DQuote, DQuote] + e[2..] == e;
      } else {
        EscapeUnescape(e[1..]);
        assert [e[0]] + e[1..] == e;
      }
    }
  }

  /** A field of a record: quoted text, or bare text written as is. */
  datatype Field = Quoted(text: string) | Bare(text: string)

  /** Bare text that is TEXTDATA of RFC 4180: no comma, quote or line break. */
  predicate BareSafe(t: string) {
    ',' !in t && DQuote !in t && '\n' !in t && '\r' !in t
  }

  predicate WellFormed(fs: seq<Field>) {
    forall i :: 0 <= i < |fs| ==> fs[i].Bare? ==> BareSafe(fs[i].text)
  }

  function EncodeField(f: Field): (r: string)
    ensures f.Quoted? ==> |r| >= 2 && r[0] == DQuote && r[|r| - 1] == DQuote
    ensures f.Quoted? ==> UnescapeQuotes(r[1..|r| - 1]) == Some(f.text)
  {
    match f
    case Quoted(t) =>
      var r := [DQuote] + EscapeQuotes(t) + [DQuote];
      assert r[1..|r| - 1] == EscapeQuotes(t);
      UnescapeEscape(t);
      r
    case Bare(t) => t
  }

  /** `fields.join(',')` of the encoded fields. */
  function EncodeRecord(fs: seq<Field>): string
    requires |fs| >= 1
  {
    if |fs| == 1 then EncodeField(fs[0])
    else EncodeField(fs[0]) + "," + EncodeRecord(fs[1..])
  }

  /** Reads the rest of a quoted field after its opening quote: its text and whatever
      follows the closing quote. */
  function ReadQuoted(s: string): (r: Option<(string, string)>)
    ensures r.Some? ==> |r.value.1| < |s|
  {
    if |s| == 0 then None
    else if s[0] == DQuote then
      if |s| >= 2 && s[1] == DQuote then
        match ReadQuoted(s[2..])
        case None => None
        case Some(p) => Some(([DQuote] + p.0, p.1))
      else Some(("", s[1..]))
    else
      match ReadQuoted(s[1..])
      case None => None
      case Some(p) => Some(([s[0]] + p.0, p.1))
  }

  /** Reads bare text up to the next comma. */
  function ReadBare(s: string): (r: (string, string))
    ensures r.0 + r.1 == s
    ensures ',' !in r.0
    ensures |r.1| == 0 || r.1[0] == ','
  {
    if |s| == 0 || s[0] == ',' then ("", s)
    else
      var p := ReadBare(s[1..]);
      assert [s[0]] + p.0 + p.1 == s;
      ([s[0]] + p.0, p.1)
  }

  function ReadField(s: string): (r: Option<(Field, string)>)
    ensures r.Some? ==> |r.value.1| <= |s|
  {
    if |s| > 0 && s[0] == DQuote then
      match ReadQuoted(s[1..])
      case None => None
      case Some(p) => Some((Quoted(p.0), p.1))
    else
      var p := ReadBare(s);
      Some((Bare(p.0), p.1))
  }

  /** Reads a record: fields separated by commas, up to the end of the text. */
  function ReadRecord(s: string): Option<seq<Field>>
    decreases |s|
  {
    match ReadField(s)
    case None => None
    case Some(p) =>
      if |p.1| == 0 then Some([p.0])
      else if p.1[0] == ',' then
        match ReadRecord(p.1[1..])
        case None => None
        case Some(fs) => Some([p.0] + fs)
      else None
  }

  lemma {:induction false} ReadQuotedEscape(t: string, rest: string)
    requires |rest| == 0 || rest[0] != DQuote
    ensures ReadQuoted(EscapeQuotes(t) + [DQuote] + rest) == Some((t, rest))
  {
    ReadQuotedEscapeTail(t, rest);
    assert EscapeQuotes(t) + [DQuote] + rest == EscapeQuotes(t) + ([DQuote] + rest);
  }

  /** `ReadQuotedEscape` with the closing quote grouped with what follows it. */
  lemma {:induction false} ReadQuotedEscapeTail(t: string, rest: string)
    requires |rest| == 0 || rest[0] != DQuote
    ensures ReadQuoted(EscapeQuotes(t) + ([DQuote] + rest)) == Some((t, rest))
  {
    if |t| == 0 {
      assert EscapeQuotes(t) + ([DQuote] + rest) == [DQuote] + rest;
      assert ([DQuote] + rest)[1..] == rest;
    } else {
      ReadQuotedEscapeTail(t[1..], rest);
      ReadQuotedStep(t, rest);
    }
  }

  /** A doubled quote reads as one quote in front of what follows. */
  lemma ReadQuotedDoubled(tail: string, x: string, rest: string)
    requires ReadQuoted(tail) == Some((x, rest))
    ensures ReadQuoted([DQuote, DQuote] + tail) == Some(([DQuote] + x, rest))
  {
    assert ([DQuote, DQuote] + tail)[2..] == tail;
  }

  /** Any other character reads as itself in front of what follows. */
  lemma ReadQuotedPlain(c: char, tail: string, x: string, rest: string)
    requires c != DQuote && ReadQuoted(tail) == Some((x, rest))
    ensures ReadQuoted([c] + tail) == Some(([c] + x, rest))
  {
    assert ([c] + tail)[1..] == tail;
  }

  /** Escaping a non-empty text: its first character, doubled when it is a quote, then
      the escaped rest, with whatever follows kept after it. */
  lemma EscapeCons(t: string, after: string)
    requires |t| > 0
    ensures EscapeQuotes(t) + after
            == (if t[0] == DQuote then [DQuote, DQuote] else [t[0]]) + (EscapeQuotes(t[1..]) + after)
  {
    var head := if t[0] == DQuote then [DQuote, DQuote] else [t[0]];
    var e := EscapeQuotes(t[1..]);
    assert EscapeQuotes(t) == head + e;
    ConcatAssoc(head, e, after);
  }

  lemma ConcatAssoc<T>(a: seq<T>, b: seq<T>, c: seq<T>)
    ensures (a + b) + c == a + (b + c)
  {
  }

  /** A non-empty sequence is its first element in front of the rest. */
  lemma FirstAndRest<T>(t: seq<T>)
    requires |t| > 0
    ensures [t[0]] + t[1..] == t
  {
  }

  /** The first character of an escaped text reads back, a doubled quote as one quote,
      in front of whatever the rest reads back as. */
  lemma ReadQuotedStep(t: string, rest: string)
    requires |t| > 0
    requires ReadQuoted(EscapeQuotes(t[1..]) + ([DQuote] + rest)) == Some((t[1..], rest))
    ensures ReadQuoted(EscapeQuotes(t) + ([DQuote] + rest)) == Some((t, rest))
  {
    var tail := EscapeQuotes(t[1..]) + ([DQuote] + rest);
    EscapeCons(t, [DQuote] + rest);
    FirstAndRest(t);
    if t[0] == DQuote {
      ReadQuotedDoubled(tail, t[1..], rest);
    } else {
      ReadQuotedPlain(t[0], tail, t[1..], rest);
    }
  }

  lemma {:induction false} ReadBareSafe(t: string, rest: string)
    requires ',' !in t
    requires |rest| == 0 || rest[0] == ','
    ensures ReadBare(t + rest) == (t, rest)
  {
    if |t| > 0 {
      ReadBareSafe(t[1..], rest);
      assert (t + rest)[1..] == t[1..] + rest;
      assert [t[0]] + t[1..] == t;
    } else {
      assert t + rest == rest;
    }
  }

  /** A field written in front of the end of the record or a comma reads back as itself. */
  lemma ReadFieldEncode(f: Field, rest: string)
    requires f.Bare? ==> BareSafe(f.text)
    requires |rest| == 0 || rest[0] == ','
    ensures ReadField(EncodeField(f) + rest) == Some((f, rest))
  {
    match f
    case Quoted(t) => ReadQuotedFieldEncode(t, rest);
    case Bare(t) => ReadBareSafe(t, rest);
  }

  lemma ReadQuotedFieldEncode(t: string, rest: string)
    requires |rest| == 0 || rest[0] == ','
    ensures ReadField(EncodeField(Quoted(t)) + rest) == Some((Quoted(t), rest))
  {
    var q := [DQuote];
    var e := EscapeQuotes(t);
    var body := e + (q + rest);
    ReadQuotedEscapeTail(t, rest);
    assert EncodeField(Quoted(t)) == (q + e) + q;
    ConcatAssoc(q + e, q, rest);
    ConcatAssoc(q, e, q + rest);
    assert (q + body)[1..] == body;
  }

  /** A record of two or more fields is its first field, a comma, and the rest. */
  lemma EncodeRecordCons(fs: seq<Field>)
    requires |fs| >= 2
    ensures EncodeRecord(fs) == EncodeField(fs[0]) + "," + EncodeRecord(fs[1..])
  {
  }

  /** The fields after the first of a well-formed record are well formed. */
  lemma WellFormedTail(fs: seq<Field>)
    requires |fs| >= 1 && WellFormed(fs)
    ensures WellFormed(fs[1..]) && (fs[0].Bare? ==> BareSafe(fs[0].text))
  {
    forall i | 0 <= i < |fs[1..]| ensures fs[1..][i].Bare? ==> BareSafe(fs[1..][i].text) {
      assert fs[1..][i] == fs[i + 1];
    }
  }

  /** Reading an encoded record recovers its fields (rules 4, 6 and 7 of section 2 of
      RFC 4180 lose nothing). */
  lemma {:induction false} ReadEncodedRecord(fs: seq<Field>)
    requires |fs| >= 1 && WellFormed(fs)
    ensures ReadRecord(EncodeRecord(fs)) == Some(fs)
  {
    WellFormedTail(fs);
    if |fs| == 1 {
      ReadRecordLast(fs[0]);
      assert fs == [fs[0]];
    } else {
      ReadEncodedRecord(fs[1..]);
      ReadRecordCons(fs);
    }
  }

  /** The inductive step: a first field in front of a record that reads back. */
  lemma ReadRecordCons(fs: seq<Field>)
    requires |fs| >= 2 && (fs[0].Bare? ==> BareSafe(fs[0].text))
    requires ReadRecord(EncodeRecord(fs[1..])) == Some(fs[1..])
    ensures ReadRecord(EncodeRecord(fs)) == Some(fs)
  {
    EncodeRecordCons(fs);
    ReadRecordStep(fs[0], EncodeRecord(fs[1..]), fs[1..]);
    assert fs == [fs[0]] + fs[1..];
  }

  lemma ReadRecordLast(f: Field)
    requires f.Bare? ==> BareSafe(f.text)
    ensures ReadRecord(EncodeField(f)) == Some([f])
  {
    ReadFieldEncode(f, "");
    assert EncodeField(f) + "" == EncodeField(f);
  }

  lemma ReadRecordStep(f: Field, tailText: string, tail: seq<Field>)
    requires f.Bare? ==> BareSafe(f.text)
    requires ReadRecord(tailText) == Some(tail)
    ensures ReadRecord(EncodeField(f) + "," + tailText) == Some([f] + tail)
  {
    var t := "," + tailText;
    assert EncodeField(f) + "," + tailText == EncodeField(f) + t;
    ReadFieldEncode(f, t);
    assert t[1..] == tailText;
  }
}

=== FILE: db_utils.dfy ===
/** The shared query helpers of the data layer (`dbUtils`): a user lookup by email, a poll
    with its ordered options and vote counts, newest-first pagination of polls, and the
    admin dashboard totals. */
module DbUtils {
  import opened Wrappers
  import opened SeqUtil
  import opened Store
  import Analytics

  /** The columns `findUserByEmail` selects. */
  datatype UserCredentials = UserCredentials(id: string, email: string, name: Option<string>, role: Role, password: Option<string>)

  function CredentialsOf(u: User): UserCredentials {
    UserCredentials(u.id, u.email, u.name, u.role, u.password)
  }

  /** `findUserByEmail(email)`: the user holding the email, or `None`. */
  function FindUserByEmail(db: Db, email: string): (r: Option<UserCredentials>)
    ensures r.None? <==> forall i :: 0 <= i < |db.users| ==> db.users[i].email != email
    ensures r.Some? ==> r.value.email == email
    ensures UniqueEmails(db.users) ==> forall i :: 0 <= i < |db.users| && db.users[i].email == email ==> r == Some(CredentialsOf(db.users[i]))
  {
    FoundIsTheHolder(db.users, email);
    match FindUser(db.users, email)
    case None => None
    case Some(u) => Some(CredentialsOf(u))
  }

  /** With unique emails, the lookup finds whichever user holds the email. */
  lemma FoundIsTheHolder(users: seq<User>, email: string)
    ensures UniqueEmails(users) ==> forall i :: 0 <= i < |users| && users[i].email == email ==> FindUser(users, email) == Some(users[i])
  {
    if UniqueEmails(users) {
      forall i | 0 <= i < |users| && users[i].email == email
        ensures FindUser(users, email) == Some(users[i])
      {
        FindUserUnique(users, users[i]);
      }
    }
  }

  datatype OptionWithVotes = OptionWithVotes(option: PollOption, votes: nat)

  datatype PollWithVotes = PollWithVotes(poll: Poll, options: seq<OptionWithVotes>, votes: nat)

  function OptionCreatedAt(o: PollOption): int { o.createdAt }

  function WithVotes(db: Db, o: PollOption): (r: OptionWithVotes)
    ensures r.option == o && r.votes == OptionVoteCount(db, o.id)
  {
    OptionWithVotes(o, OptionVoteCount(db, o.id))
  }

  /** The options inside a query result. */
  function OptionsIn(os: seq<OptionWithVotes>): (r: seq<PollOption>)
    ensures |r| == |os| && forall i :: 0 <= i < |os| ==> r[i] == os[i].option
  {
    seq(|os|, i requires 0 <= i < |os| => os[i].option)
  }

  /** `findPollWithVotes(id)`: `None` for an unknown id; otherwise the poll, its own
      options oldest first each with its vote count, and the poll's vote count. */
  function FindPollWithVotes(db: Db, id: string): (r: Option<PollWithVotes>)
    ensures r.None? <==> forall i :: 0 <= i < |db.polls| ==> db.polls[i].id != id
    ensures r.Some? ==>
              && r.value.poll in db.polls && r.value.poll.id == id
              && r.value.votes == PollVoteCount(db, id)
              && multiset(OptionsIn(r.value.options)) == multiset(OptionsOf(db, id))
              && (forall i, j :: 0 <= i < j < |r.value.options| ==> r.value.options[i].option.createdAt <= r.value.options[j].option.createdAt)
              && (forall i :: 0 <= i < |r.value.options| ==> r.value.options[i].votes == OptionVoteCount(db, r.value.options[i].option.id))
  {
    match FindPoll(db.polls, id)
    case None => None
    case Some(p) =>
      var sorted := SortAsc(OptionsOf(db, id), OptionCreatedAt);
      var withVotes := seq(|sorted|, i requires 0 <= i < |sorted| => WithVotes(db, sorted[i]));
      assert OptionsIn(withVotes) == sorted;
      Some(PollWithVotes(p, withVotes, PollVoteCount(db, id)))
  }

  /** Every option of a found poll appears in the result, and nothing else does. */
  lemma FoundPollHasItsOptions(db: Db, id: string, o: PollOption)
    requires exists i :: 0 <= i < |db.polls| && db.polls[i].id == id
    ensures FindPollWithVotes(db, id).Some?
    ensures o in OptionsIn(FindPollWithVotes(db, id).value.options) <==> o in db.options && o.pollId == id
  {
    var r := OptionsIn(FindPollWithVotes(db, id).value.options);
    assert o in r <==> o in multiset(r);
    assert o in OptionsOf(db, id) <==> o in multiset(OptionsOf(db, id));
  }

  datatype PollWithCount = PollWithCount(poll: Poll, votes: nat)

  /** All polls, newest first. */
  function NewestFirst(db: Db): (r: seq<Poll>)
    ensures |r| == |db.polls| && SortedDesc(r, PollCreatedAt) && multiset(r) == multiset(db.polls)
  {
    SortDesc(db.polls, PollCreatedAt)
  }

  function CountOf(db: Db, p: Poll): (r: PollWithCount)
    ensures r.poll == p && r.votes == PollVoteCount(db, p.id)
  {
    PollWithCount(p, PollVoteCount(db, p.id))
  }

  /** `findManyPolls(take = 10, skip = 0)`: positions [skip, skip + take) of the polls
      ordered newest first, each with its vote count. */
  function FindManyPolls(db: Db, take: nat := 10, skip: nat := 0): (r: seq<PollWithCount>)
    ensures |r| == if skip >= |db.polls| then 0 else if skip + take <= |db.polls| then take else |db.polls| - skip
    ensures forall i :: 0 <= i < |r| ==> r[i] == CountOf(db, NewestFirst(db)[skip + i])
  {
    Counts(db, Slice(NewestFirst(db), skip, take))
  }

  /** Each poll of `ps` with its vote count, in order. */
  function Counts(db: Db, ps: seq<Poll>): (r: seq<PollWithCount>)
    ensures |r| == |ps| && forall i :: 0 <= i < |r| ==> r[i] == CountOf(db, ps[i])
  {
    seq(|ps|, i requires 0 <= i < |ps| => CountOf(db, ps[i]))
  }

  /** Counting two runs of polls is counting the two runs one after the other. */
  lemma CountsAppend(db: Db, a: seq<Poll>, b: seq<Poll>)
    ensures Counts(db, a + b) == Counts(db, a) + Counts(db, b)
  {
    var l, r := Counts(db, a), Counts(db, b);
    forall i | 0 <= i < |a| + |b| ensures Counts(db, a + b)[i] == (l + r)[i] {
      if i >= |a| {
        assert (a + b)[i] == b[i - |a|];
      }
    }
  }

  /** Consecutive pages tile the listing: page [skip, skip + take) followed by
      [skip + take, skip + 2 take) is the page of twice the size. */
  lemma PagesTile(db: Db, take: nat, skip: nat)
    ensures FindManyPolls(db, take, skip) + FindManyPolls(db, take, skip + take) == FindManyPolls(db, 2 * take, skip)
  {
    var all := NewestFirst(db);
    SliceTile(all, skip, take);
    CountsAppend(db, Slice(all, skip, take), Slice(all, skip + take, take));
  }

  /** Every poll on a page is at least as new as every poll on any later page. */
  lemma EarlierPagesAreNewer(db: Db, take: nat, skip1: nat, skip2: nat, i: nat, j: nat)
    requires skip1 + take <= skip2
    requires i < |FindManyPolls(db, take, skip1)| && j < |FindManyPolls(db, take, skip2)|
    ensures FindManyPolls(db, take, skip1)[i].poll.createdAt >= FindManyPolls(db, take, skip2)[j].poll.createdAt
  {
    var s := NewestFirst(db);
    assert FindManyPolls(db, take, skip1)[i].poll == s[skip1 + i];
    assert FindManyPolls(db, take, skip2)[j].poll == s[skip2 + j];
  }

  // ---------------------------------------------------------------------------
  // getAdminStats

  datatype RecentPoll = RecentPoll(id: string, title: string, createdAt: string, votes: nat)

  datatype AdminStats = AdminStats(totalUsers: nat, totalPolls: nat, totalVotes: nat, recentPolls: seq<RecentPoll>)

  /** The number of polls the dashboard lists. */
  const RecentCount: nat := 10

  function RecentPollOf(db: Db, p: Poll, iso: int -> string): (r: RecentPoll)
    ensures r.id == p.id && r.votes == PollVoteCount(db, p.id)
  {
    RecentPoll(p.id, p.title, iso(p.createdAt), PollVoteCount(db, p.id))
  }

  /** `getAdminStats()`: the three table sizes and the ten newest polls, each with its
      own vote count. */
  function GetAdminStats(db: Db, iso: int -> string): (r: AdminStats)
    ensures r.totalUsers == |db.users| && r.totalPolls == |db.polls| && r.totalVotes == |db.votes|
    ensures |r.recentPolls| == if |db.polls| < RecentCount then |db.polls| else RecentCount
    ensures forall i :: 0 <= i < |r.recentPolls| ==> r.recentPolls[i] == RecentPollOf(db, NewestFirst(db)[i], iso)
  {
    var recent := Slice(NewestFirst(db), 0, RecentCount);
    AdminStats(|db.users|, |db.polls|, |db.votes|,
               seq(|recent|, i requires 0 <= i < |recent| => RecentPollOf(db, recent[i], iso)))
  }

  /** The dashboard's recent polls are the first page of `findManyPolls` with its defaults. */
  lemma RecentPollsAreFirstPage(db: Db, iso: int -> string)
    ensures var stats := GetAdminStats(db, iso);
            var page := FindManyPolls(db);
            && |stats.recentPolls| == |page|
            && forall i :: 0 <= i < |page| ==> stats.recentPolls[i].id == page[i].poll.id && stats.recentPolls[i].votes == page[i].votes
  {
  }

  /** The analytics route's five top polls are the first five of the dashboard's recent
      polls: both lists are newest first. */
  lemma TopPollsPrefixRecentPolls(db: Db, iso: int -> string)
    ensures var recent := GetAdminStats(db, iso).recentPolls;
            var top := Analytics.TopPolls(db, iso);
            && |top| <= |recent|
            && forall i :: 0 <= i < |top| ==> top[i].id == recent[i].id && top[i].votes == recent[i].votes
  {
    var recent := GetAdminStats(db, iso).recentPolls;
    var top := Analytics.TopPolls(db, iso);
    var newest := Analytics.NewestPolls(db);
    Analytics.NewestPollsLeadSorted(db);
    forall i | 0 <= i < |top| ensures top[i].id == recent[i].id && top[i].votes == recent[i].votes {
      assert top[i] == Analytics.TopPollOf(db, newest[i], iso);
      assert recent[i] == RecentPollOf(db, NewestFirst(db)[i], iso);
    }
  }
}

=== FILE: env.dfy ===
/** `getAuthConfig()`: the NextAuth base URL chosen from the environment. The
    environment is a finite map from variable names to values; a missing name is
    `undefined`. */
module Env {
  import opened Wrappers

  type Environment = map<string, string>

  function Lookup(env: Environment, name: string): (r: Option<string>)
    ensures r.Some? <==> name in env
  {
    if name in env then Some(env[name]) else None
  }

  const DevelopmentUrl: string := "http://localhost:3001"
  const PlaceholderUrl: string := "https://your-domain.com"

  datatype ClientConfig = ClientConfig(clientId: Option<string>, clientSecret: Option<string>)

  datatype AuthConfig = AuthConfig(
    baseUrl: Option<string>,
    isDevelopment: bool,
    isProduction: bool,
    secret: Option<string>,
    github: ClientConfig,
    google: ClientConfig)

  /** The production fallback: `https://` + VERCEL_URL when set, else NEXT_PUBLIC_APP_URL
      when set, else the placeholder. */
  function ProductionUrl(env: Environment): (r: string)
    ensures |r| > 0
    ensures Truthy(Lookup(env, "VERCEL_URL")) ==> r == "https://" + env["VERCEL_URL"]
    ensures !Truthy(Lookup(env, "VERCEL_URL")) && Truthy(Lookup(env, "NEXT_PUBLIC_APP_URL")) ==> r == env["NEXT_PUBLIC_APP_URL"]
    ensures !Truthy(Lookup(env, "VERCEL_URL")) && !Truthy(Lookup(env, "NEXT_PUBLIC_APP_URL")) ==> r == PlaceholderUrl
  {
    var vercel := Lookup(env, "VERCEL_URL");
    var public := Lookup(env, "NEXT_PUBLIC_APP_URL");
    if Truthy(vercel) then "https://" + vercel.value
    else if Truthy(public) then public.value
    else PlaceholderUrl
  }

  /** `getAuthConfig()`. */
  function GetAuthConfig(env: Environment): (r: AuthConfig)
    ensures r.isDevelopment <==> Lookup(env, "NODE_ENV") == Some("development")
    ensures r.isProduction <==> Lookup(env, "NODE_ENV") == Some("production")
    ensures Truthy(Lookup(env, "NEXTAUTH_URL")) ==> r.baseUrl == Lookup(env, "NEXTAUTH_URL")
    ensures !Truthy(Lookup(env, "NEXTAUTH_URL")) && r.isDevelopment ==> r.baseUrl == Some(DevelopmentUrl)
    ensures !Truthy(Lookup(env, "NEXTAUTH_URL")) && r.isProduction ==> r.baseUrl == Some(ProductionUrl(env))
    ensures !Truthy(Lookup(env, "NEXTAUTH_URL")) && !r.isDevelopment && !r.isProduction ==> r.baseUrl == Lookup(env, "NEXTAUTH_URL")
    ensures r.secret == Lookup(env, "NEXTAUTH_SECRET")
  {
    var isDevelopment := Lookup(env, "NODE_ENV") == Some("development");
    var isProduction := Lookup(env, "NODE_ENV") == Some("production");
    var configured := Lookup(env, "NEXTAUTH_URL");
    var baseUrl :=
      if Truthy(configured) then configured
      else if isDevelopment then Some(DevelopmentUrl)
      else if isProduction then Some(ProductionUrl(env))
      else configured;
    AuthConfig(baseUrl, isDevelopment, isProduction, Lookup(env, "NEXTAUTH_SECRET"),
               ClientConfig(Lookup(env, "GITHUB_CLIENT_ID"), Lookup(env, "GITHUB_CLIENT_SECRET")),
               ClientConfig(Lookup(env, "GOOGLE_CLIENT_ID"), Lookup(env, "GOOGLE_CLIENT_SECRET")))
  }

  /** The two mode flags exclude each other. */
  lemma NeverBothModes(env: Environment)
    ensures !(GetAuthConfig(env).isDevelopment && GetAuthConfig(env).isProduction)
  {
  }

  /** The base URL is usable (non-empty) exactly when NEXTAUTH_URL is set or the mode is
      development or production; in any other mode without NEXTAUTH_URL it stays
      undefined, or empty when NEXTAUTH_URL is the empty string. */
  lemma BaseUrlDefinedIff(env: Environment)
    ensures var c := GetAuthConfig(env);
            Truthy(c.baseUrl) <==> Truthy(Lookup(env, "NEXTAUTH_URL")) || c.isDevelopment || c.isProduction
  {
  }

  /** A set NEXTAUTH_URL wins whatever NODE_ENV and the hosting variables say. */
  lemma ConfiguredUrlWins(env: Environment, mode: string, vercel: string)
    requires Truthy(Lookup(env, "NEXTAUTH_URL"))
    ensures GetAuthConfig(env["NODE_ENV" := mode]["VERCEL_URL" := vercel]).baseUrl == Some(env["NEXTAUTH_URL"])
  {
    var env' := env["NODE_ENV" := mode]["VERCEL_URL" := vercel];
    assert Lookup(env', "NEXTAUTH_URL") == Lookup(env, "NEXTAUTH_URL");
  }
}

=== FILE: export.dfy ===
/** The admin CSV export (GET /api/admin/export): every poll, newest first, flattened into
    one line per option with the poll's fields repeated, or one line with an empty option
    for a poll without options. Text fields are quoted as in section 2 of RFC 4180; ids,
    dates, flags and counts are written bare, and lines are joined with LF rather than CRLF. */
module Export {
  import opened Wrappers
  import opened Text
  import opened SeqUtil
  import opened Store
  import opened Csv

  /** The first line: "Poll ID,Poll Title,Poll Description,Created At,Is Active,Total Votes,Option Text,Option Votes". */
  const Header: string :=
    "Poll ID" + "," + "Poll Title" + "," + "Poll Description" + "," + "Created At" + ","
    + "Is Active" + "," + "Total Votes" + "," + "Option Text" + "," + "Option Votes"

  const ContentType: string := "text/csv"
  const Disposition: string := "attachment; filename=\"poll-results.csv\""

  datatype OptionRow = OptionRow(text: string, votes: nat)

  /** A poll as the export query returns it, with its options and vote counts. */
  datatype PollRecord = PollRecord(
    id: string,
    title: string,
    description: Option<string>,
    createdAt: int,
    isActive: bool,
    votes: nat,
    options: seq<OptionRow>)

  function OptionRows(db: Db, os: seq<PollOption>): (r: seq<OptionRow>)
    ensures |r| == |os|
    ensures forall i :: 0 <= i < |r| ==> r[i].text == os[i].text && r[i].votes == OptionVoteCount(db, os[i].id)
  {
    seq(|os|, i requires 0 <= i < |os| => OptionRow(os[i].text, OptionVoteCount(db, os[i].id)))
  }

  /** A poll's record: its own columns, its total, and its options as the store holds
      them, each with its own count. */
  function RecordOf(db: Db, p: Poll): (r: PollRecord)
    ensures r.id == p.id && r.title == p.title && r.description == p.description
    ensures r.createdAt == p.createdAt && r.isActive == p.isActive
    ensures r.votes == PollVoteCount(db, p.id)
    ensures r.options == OptionRows(db, OptionsOf(db, p.id))
  {
    PollRecord(p.id, p.title, p.description, p.createdAt, p.isActive,
               PollVoteCount(db, p.id), OptionRows(db, OptionsOf(db, p.id)))
  }

  /** The export query: all polls, newest first, with their options and counts. */
  function ExportPolls(db: Db): (r: seq<PollRecord>)
    ensures |r| == |db.polls|
    ensures forall i, j :: 0 <= i < j < |r| ==> r[i].createdAt >= r[j].createdAt
    ensures forall i :: 0 <= i < |r| ==> r[i].votes == PollVoteCount(db, r[i].id)
  {
    var sorted := SortDesc(db.polls, PollCreatedAt);
    seq(|sorted|, i requires 0 <= i < |sorted| => RecordOf(db, sorted[i]))
  }

  /** The records are the store's polls, each exactly once: some rearrangement of the
      polls gives every record its poll. */
  lemma ExportRecordsAreStorePolls(db: Db)
    ensures exists ps: seq<Poll> ::
              && multiset(ps) == multiset(db.polls) && |ps| == |ExportPolls(db)|
              && forall i :: 0 <= i < |ps| ==> ExportPolls(db)[i] == RecordOf(db, ps[i])
  {
    var ps := SortDesc(db.polls, PollCreatedAt);
    assert forall i :: 0 <= i < |ps| ==> ExportPolls(db)[i] == RecordOf(db, ps[i]);
  }

  function YesNo(b: bool): string {
    if b then "Yes" else "No"
  }

  /** The six leading fields every line of a poll repeats. `iso` renders a timestamp
      (`toISOString`). */
  function BaseFields(p: PollRecord, iso: int -> string): (r: seq<Field>)
    ensures |r| == 6
  {
    [Bare(p.id), Quoted(p.title), Quoted(p.description.GetOr("")), Bare(iso(p.createdAt)),
     Bare(YesNo(p.isActive)), Bare(NatToString(p.votes))]
  }

  /** The fields of the line for option `i` of a poll. */
  function OptionFields(p: PollRecord, iso: int -> string, i: nat): seq<Field>
    requires i < |p.options|
  {
    BaseFields(p, iso) + [Quoted(p.options[i].text), Bare(NatToString(p.options[i].votes))]
  }

  /** The fields of the single line of a poll without options. */
  function EmptyFields(p: PollRecord, iso: int -> string): seq<Field> {
    BaseFields(p, iso) + [Bare(""), Bare("0")]
  }

  /** The line for option `i` of a poll. */
  function OptionLine(p: PollRecord, iso: int -> string, i: nat): string
    requires i < |p.options|
  {
    EncodeRecord(OptionFields(p, iso, i))
  }

  /** The single line of a poll without options. */
  function EmptyLine(p: PollRecord, iso: int -> string): string {
    EncodeRecord(EmptyFields(p, iso))
  }

  /** The lines one poll contributes. */
  function PollLines(p: PollRecord, iso: int -> string): (r: seq<string>)
    ensures |r| == LinesOf(p)
  {
    if |p.options| == 0 then [EmptyLine(p, iso)]
    else seq(|p.options|, i requires 0 <= i < |p.options| => OptionLine(p, iso, i))
  }

  function BodyLines(ps: seq<PollRecord>, iso: int -> string): seq<string> {
    if |ps| == 0 then [] else PollLines(ps[0], iso) + BodyLines(ps[1..], iso)
  }

  function Lines(ps: seq<PollRecord>, iso: int -> string): seq<string> {
    [Header] + BodyLines(ps, iso)
  }

  /** `csvRows.join('\n')`. */
  function Content(ps: seq<PollRecord>, iso: int -> string): string {
    Join(Lines(ps, iso), '\n')
  }

  datatype ExportResponse =
    | Unauthorized           // 401
    | ExportFailed           // 500, the query threw
    | CsvFile(content: string, contentType: string, disposition: string)  // 200
  {
    function Status(): int {
      match this
      case Unauthorized => 401
      case ExportFailed => 500
      case CsvFile(_, _, _) => 200
    }
  }

  /** The route: admin gate, then the query (which may fail), then the CSV. */
  function Get(session: Option<SessionUser>, db: Db, iso: int -> string, queryFails: bool): (r: ExportResponse)
    ensures !IsAdmin(session) <==> r == Unauthorized
    ensures r.Status() == 200 <==> IsAdmin(session) && !queryFails
    ensures r.CsvFile? ==> r.content == Content(ExportPolls(db), iso) && r.contentType == "text/csv"
  {
    if !IsAdmin(session) then Unauthorized
    else if queryFails then ExportFailed
    else CsvFile(Content(ExportPolls(db), iso), ContentType, Disposition)
  }

  // ---------------------------------------------------------------------------
  // Properties

  /** Lines a poll contributes: one per option, or one when it has none. */
  function LinesOf(p: PollRecord): nat {
    if |p.options| == 0 then 1 else |p.options|
  }

  function RowCount(ps: seq<PollRecord>): nat {
    if |ps| == 0 then 0 else LinesOf(ps[0]) + RowCount(ps[1..])
  }

  /** The export has one header line plus max(1, #options) lines per poll. */
  lemma {:induction false} LineCount(ps: seq<PollRecord>, iso: int -> string)
    ensures |Lines(ps, iso)| == 1 + RowCount(ps)
  {
    BodyLineCount(ps, iso);
  }

  lemma {:induction false} BodyLineCount(ps: seq<PollRecord>, iso: int -> string)
    ensures |BodyLines(ps, iso)| == RowCount(ps)
  {
    if |ps| > 0 {
      BodyLineCount(ps[1..], iso);
    }
  }

  lemma {:induction false} RowCountAppend(a: seq<PollRecord>, p: PollRecord)
    ensures RowCount(a + [p]) == RowCount(a) + LinesOf(p)
  {
    if |a| == 0 {
      assert a + [p] == [p];
    } else {
      RowCountAppend(a[1..], p);
      assert (a + [p])[1..] == a[1..] + [p];
    }
  }

  /** The lines of two runs of polls are the lines of the first, then those of the second. */
  lemma {:induction false} BodyLinesAppend(a: seq<PollRecord>, b: seq<PollRecord>, iso: int -> string)
    ensures BodyLines(a + b, iso) == BodyLines(a, iso) + BodyLines(b, iso)
  {
    if |a| == 0 {
      assert a + b == b;
    } else {
      var ab := a + b;
      assert ab[0] == a[0] && ab[1..] == a[1..] + b;
      BodyLinesAppend(a[1..], b, iso);
      var h := PollLines(a[0], iso);
      var x := BodyLines(a[1..], iso);
      var y := BodyLines(b, iso);
      assert BodyLines(ab, iso) == h + (x + y);
      assert h + (x + y) == (h + x) + y;
    }
  }

  /** The lines of all polls are those of the polls before `k`, then poll `k`'s own,
      then those after it. */
  lemma BodyLinesAround(ps: seq<PollRecord>, iso: int -> string, k: nat)
    requires k < |ps|
    ensures BodyLines(ps, iso) == BodyLines(ps[..k], iso) + (PollLines(ps[k], iso) + BodyLines(ps[k + 1..], iso))
  {
    var from := ps[k..];
    assert ps == ps[..k] + from;
    BodyLinesAppend(ps[..k], from, iso);
    assert from[0] == ps[k] && from[1..] == ps[k + 1..];
  }

  /** Indexing past a prefix lands in the next block. */
  lemma IndexPastPrefix<T>(prior: seq<T>, own: seq<T>, after: seq<T>, i: nat)
    requires i < |own|
    ensures (prior + (own + after))[|prior| + i] == own[i]
  {
  }

  /** The lines of poll `k` sit right after the lines of the polls before it. */
  lemma PollLinesPosition(ps: seq<PollRecord>, iso: int -> string, k: nat, i: nat)
    requires k < |ps| && i < LinesOf(ps[k])
    ensures RowCount(ps[..k]) + i < |BodyLines(ps, iso)|
    ensures BodyLines(ps, iso)[RowCount(ps[..k]) + i] == PollLines(ps[k], iso)[i]
  {
    BodyLinesAround(ps, iso, k);
    BodyLineCount(ps[..k], iso);
    IndexPastPrefix(BodyLines(ps[..k], iso), PollLines(ps[k], iso), BodyLines(ps[k + 1..], iso), i);
  }

  lemma NumeralBareSafe(n: nat)
    ensures BareSafe(NatToString(n))
  {
    var s := NatToString(n);
    assert forall i :: 0 <= i < |s| ==> IsDigit(s[i]);
  }

  /** Ids and rendered dates are written bare; the round trips below need them to be
      RFC 4180 TEXTDATA. */
  predicate BareColumnsSafe(p: PollRecord, iso: int -> string) {
    BareSafe(p.id) && BareSafe(iso(p.createdAt))
  }

  lemma BaseFieldsWellFormed(p: PollRecord, iso: int -> string)
    requires BareColumnsSafe(p, iso)
    ensures WellFormed(BaseFields(p, iso))
  {
    NumeralBareSafe(p.votes);
  }

  /** A poll with k >= 1 options contributes exactly k lines, in option order; line i
      reads back as the poll's six base fields, then option i's text (quoted) and vote
      count (a decimal numeral). */
  lemma OptionLinesReadBack(p: PollRecord, iso: int -> string, i: nat)
    requires BareColumnsSafe(p, iso) && 0 < |p.options| && i < |p.options|
    ensures |PollLines(p, iso)| == |p.options|
    ensures ReadRecord(PollLines(p, iso)[i]) == Some(BaseFields(p, iso) + [Quoted(p.options[i].text), Bare(NatToString(p.options[i].votes))])
    ensures DigitsValue(NatToString(p.options[i].votes)) == p.options[i].votes
  {
    BaseFieldsWellFormed(p, iso);
    NumeralBareSafe(p.options[i].votes);
    var fs := OptionFields(p, iso, i);
    assert WellFormed(fs) by {
      forall j | 0 <= j < |fs| ensures fs[j].Bare? ==> BareSafe(fs[j].text) {
        if j < 6 { assert fs[j] == BaseFields(p, iso)[j]; }
      }
    }
    ReadEncodedRecord(fs);
    NatToStringRoundTrip(p.options[i].votes);
  }

  /** A poll without options contributes one line: its base fields, an empty bare option
      text and the count 0. */
  lemma EmptyPollLineReadsBack(p: PollRecord, iso: int -> string)
    requires BareColumnsSafe(p, iso) && |p.options| == 0
    ensures |PollLines(p, iso)| == 1
    ensures ReadRecord(PollLines(p, iso)[0]) == Some(BaseFields(p, iso) + [Bare(""), Bare("0")])
  {
    BaseFieldsWellFormed(p, iso);
    var fs := EmptyFields(p, iso);
    assert WellFormed(fs) by {
      forall j | 0 <= j < |fs| ensures fs[j].Bare? ==> BareSafe(fs[j].text) {
        if j < 6 { assert fs[j] == BaseFields(p, iso)[j]; }
      }
    }
    ReadEncodedRecord(fs);
  }

  /** The title and description columns read back to the stored text; an absent
      description reads back as the empty text. */
  lemma TextColumnsReadBack(p: PollRecord, iso: int -> string)
    ensures BaseFields(p, iso)[1] == Quoted(p.title)
    ensures BaseFields(p, iso)[2] == Quoted(if p.description.Some? then p.description.value else "")
    ensures EncodeField(Quoted("")) == "\"\""
  {
  }

  // Line structure of the whole file

  lemma {:induction false} EscapeKeepsLineBreaksOut(s: string)
    requires '\n' !in s
    ensures '\n' !in EscapeQuotes(s)
  {
    if |s| > 0 {
      EscapeKeepsLineBreaksOut(s[1..]);
    }
  }

  lemma {:induction false} RecordHasNoLineBreak(fs: seq<Field>)
    requires |fs| >= 1
    requires forall j :: 0 <= j < |fs| ==> '\n' !in fs[j].text
    ensures '\n' !in EncodeRecord(fs)
  {
    assert '\n' !in fs[0].text;
    if fs[0].Quoted? {
      EscapeKeepsLineBreaksOut(fs[0].text);
    }
    if |fs| > 1 {
      RecordHasNoLineBreak(fs[1..]);
    }
  }

  /** No text column holds a line feed. */
  predicate NoLineFeeds(p: PollRecord, iso: int -> string) {
    && '\n' !in p.id && '\n' !in p.title && '\n' !in p.description.GetOr("")
    && '\n' !in iso(p.createdAt)
    && forall i :: 0 <= i < |p.options| ==> '\n' !in p.options[i].text
  }

  lemma PollLinesHaveNoLineFeed(p: PollRecord, iso: int -> string)
    requires NoLineFeeds(p, iso)
    ensures forall i :: 0 <= i < |PollLines(p, iso)| ==> '\n' !in PollLines(p, iso)[i]
  {
    NumeralBareSafe(p.votes);
    var base := BaseFields(p, iso);
    assert forall j :: 0 <= j < 6 ==> '\n' !in base[j].text;
    if |p.options| == 0 {
      var fs := EmptyFields(p, iso);
      assert forall j :: 0 <= j < |fs| ==> '\n' !in fs[j].text by {
        forall j | 0 <= j < |fs| ensures '\n' !in fs[j].text {
          if j < 6 { assert fs[j] == base[j]; }
        }
      }
      RecordHasNoLineBreak(fs);
    } else {
      forall i | 0 <= i < |p.options| ensures '\n' !in PollLines(p, iso)[i] {
        NumeralBareSafe(p.options[i].votes);
        var fs := OptionFields(p, iso, i);
        forall j | 0 <= j < |fs| ensures '\n' !in fs[j].text {
          if j < 6 { assert fs[j] == base[j]; }
        }
        RecordHasNoLineBreak(fs);
      }
    }
  }

  lemma {:induction false} BodyLinesHaveNoLineFeed(ps: seq<PollRecord>, iso: int -> string)
    requires forall k :: 0 <= k < |ps| ==> NoLineFeeds(ps[k], iso)
    ensures forall i :: 0 <= i < |BodyLines(ps, iso)| ==> '\n' !in BodyLines(ps, iso)[i]
  {
    if |ps| > 0 {
      PollLinesHaveNoLineFeed(ps[0], iso);
      BodyLinesHaveNoLineFeed(ps[1..], iso);
    }
  }

  /** When no text holds a line feed, splitting the file on LF gives back exactly the
      header and the poll lines: 1 + sum of max(1, #options) lines, with no empty line
      after the last one. */
  lemma ContentSplitsIntoLines(ps: seq<PollRecord>, iso: int -> string)
    requires forall k :: 0 <= k < |ps| ==> NoLineFeeds(ps[k], iso)
    ensures Split(Content(ps, iso), '\n') == Lines(ps, iso)
    ensures |Split(Content(ps, iso), '\n')| == 1 + RowCount(ps)
    ensures Split(Content(ps, iso), '\n')[0] == Header
  {
    var body := BodyLines(ps, iso);
    BodyLinesHaveNoLineFeed(ps, iso);
    var ls := [Header] + body;
    assert ls == Lines(ps, iso);
    assert forall i :: 0 <= i < |ls| ==> '\n' !in ls[i] by {
      HeaderHasNoLineFeed();
      forall i | 0 <= i < |ls| ensures '\n' !in ls[i] {
        if i > 0 { assert ls[i] == body[i - 1]; }
      }
    }
    SplitJoin(ls, '\n');
    LineCount(ps, iso);
  }

  lemma HeaderHasNoLineFeed()
    ensures '\n' !in Header
  {
  }

  /** Whatever the polls hold, the file starts with the header line. */
  lemma ContentStartsWithHeader(ps: seq<PollRecord>, iso: int -> string)
    ensures |Header| <= |Content(ps, iso)|
    ensures Content(ps, iso)[..|Header|] == Header
    ensures |Content(ps, iso)| > |Header| ==> Content(ps, iso)[|Header|] == '\n'
  {
    var ls := Lines(ps, iso);
    if |ls| > 1 {
      assert Content(ps, iso) == Header + ['\n'] + Join(ls[1..], '\n');
    }
  }
}

=== FILE: json.dfy ===
/** Request bodies as parsed JSON values, the shape the validation schemas inspect. */
module Json {
  import opened Wrappers

  /** A JSON value: strings, arrays and objects are distinguished; numbers, booleans and
      `null` are never accepted where the schemas expect one of those and share `JOther`. */
  datatype JVal = JStr(s: string) | JArr(items: seq<JVal>) | JObj(fields: map<string, JVal>) | JOther

  /** The member `key` of an object body; absent for a missing key or a non-object body. */
  function Member(body: JVal, key: string): (r: Option<JVal>)
    ensures r.Some? <==> body.JObj? && key in body.fields
  {
    if body.JObj? && key in body.fields then Some(body.fields[key]) else None
  }
}

=== FILE: language.dfy ===
/** Language selection for the two translation hooks: the initial language read from
    local storage, `changeLanguage` (the provider variant guards against re-selecting
    the current language, the older hook does not), and the provider's per-language
    cache of loaded translation files. Local storage and the JSON imports are
    parameters. */
module Language {
  import opened Wrappers
  import opened Translations

  /** The keys of `languages`. */
  const Languages: set<string> := {"en", "es", "fr", "de"}

  const DefaultLanguage: string := "en"

  /** The local-storage key the choice is saved under. */
  const StorageKey: string := "poll-dashboard-language"

  predicate Supported(lang: string) {
    lang in Languages
  }

  /** The initial language: the saved value when running in a browser and the value is
      a supported language, otherwise English. */
  function InitialLanguage(hasWindow: bool, saved: Option<string>): (r: string)
    ensures Supported(r)
    ensures hasWindow && saved.Some? && Supported(saved.value) ==> r == saved.value
    ensures !(hasWindow && saved.Some? && Supported(saved.value)) ==> r == DefaultLanguage
  {
    if hasWindow && Truthy(saved) && Supported(saved.value) then saved.value else DefaultLanguage
  }

  /** The current language and the value saved in local storage. */
  datatype LangState = LangState(current: string, saved: Option<string>)

  /** The provider's `changeLanguage`: only a supported language different from the
      current one is selected and saved. */
  function ChangeLanguage(st: LangState, lang: string, hasWindow: bool): (r: LangState)
    ensures r != st ==> Supported(lang) && lang != st.current
    ensures Supported(lang) && lang != st.current ==>
              r.current == lang && r.saved == (if hasWindow then Some(lang) else st.saved)
  {
    if Supported(lang) && lang != st.current then
      LangState(lang, if hasWindow then Some(lang) else st.saved)
    else st
  }

  /** The older hook's `changeLanguage`: any supported language, the current one
      included, is selected and saved. */
  function ChangeLanguageLegacy(st: LangState, lang: string, hasWindow: bool): (r: LangState)
    ensures !Supported(lang) ==> r == st
    ensures Supported(lang) ==> r.current == lang && r.saved == (if hasWindow then Some(lang) else st.saved)
  {
    if Supported(lang) then LangState(lang, if hasWindow then Some(lang) else st.saved)
    else st
  }

  /** Both variants select the same language, and both keep it a supported one. */
  lemma VariantsAgreeOnLanguage(st: LangState, lang: string, hasWindow: bool)
    requires Supported(st.current)
    ensures ChangeLanguage(st, lang, hasWindow).current == ChangeLanguageLegacy(st, lang, hasWindow).current
    ensures Supported(ChangeLanguage(st, lang, hasWindow).current)
  {
  }

  /** They differ in what is saved: re-selecting the current language rewrites local
      storage only in the older hook. */
  lemma VariantsDifferOnStorage()
    ensures var st := LangState("fr", Some("de"));
            && ChangeLanguage(st, "fr", true).saved == Some("de")
            && ChangeLanguageLegacy(st, "fr", true).saved == Some("fr")
  {
  }

  /** A language chosen in the browser is the one the next page load starts with. */
  lemma ChoiceSurvivesReload(st: LangState, lang: string)
    requires Supported(lang)
    ensures InitialLanguage(true, ChangeLanguage(st, lang, true).saved) == lang || lang == st.current
    ensures InitialLanguage(true, ChangeLanguageLegacy(st, lang, true).saved) == lang
  {
  }

  // ---------------------------------------------------------------------------
  // Loading translation files

  /** The locale file imported for a language: its own for a supported one, English
      otherwise. */
  function LocaleFile(lang: string): (file: string)
    ensures Supported(file)
    ensures Supported(lang) ==> file == lang
  {
    if Supported(lang) then lang else DefaultLanguage
  }

  /** The loaded translations per language code. */
  type Cache = map<string, Dictionary>

  /** The provider's load effect: a cached language is reused without importing;
      otherwise its file is imported (`files` gives `None` when an import fails) and
      cached; on failure English is used, from the cache or freshly imported and cached,
      and an empty dictionary when that import fails too. */
  function Load(cache: Cache, lang: string, files: string -> Option<Dictionary>): (r: (Dictionary, Cache))
    ensures cache.Keys <= r.1.Keys
    ensures forall l :: l in cache ==> r.1[l] == cache[l]
    ensures lang in cache ==> r == (cache[lang], cache)
    ensures lang !in cache && files(LocaleFile(lang)).Some? ==> r == (files(LocaleFile(lang)).value, cache[lang := files(LocaleFile(lang)).value])
    ensures lang !in cache && files(LocaleFile(lang)).None? ==>
              && r.0 == (if DefaultLanguage in cache then cache[DefaultLanguage] else files(DefaultLanguage).GetOr(map[]))
              && r.1 == (if DefaultLanguage !in cache && files(DefaultLanguage).Some? then cache[DefaultLanguage := files(DefaultLanguage).value] else cache)
  {
    if lang in cache then (cache[lang], cache)
    else
      match files(LocaleFile(lang))
      case Some(t) => (t, cache[lang := t])
      case None =>
        if DefaultLanguage in cache then (cache[DefaultLanguage], cache)
        else
          match files(DefaultLanguage)
          case Some(t) => (t, cache[DefaultLanguage := t])
          case None => (map[], cache)
  }

  /** Once a language has loaded, loading it again is a cache hit: the same translations,
      whatever the imports would now return. */
  lemma SecondLoadIsCached(cache: Cache, lang: string, files1: string -> Option<Dictionary>, files2: string -> Option<Dictionary>)
    requires files1(LocaleFile(lang)).Some?
    ensures var (t1, cache1) := Load(cache, lang, files1);
            Load(cache1, lang, files2) == (t1, cache1)
  {
  }

  /** The older hook's load: no cache; the language's file, else English, else empty. */
  function LoadLegacy(lang: string, files: string -> Option<Dictionary>): (r: Dictionary)
    ensures files(LocaleFile(lang)).Some? ==> r == files(LocaleFile(lang)).value
    ensures files(LocaleFile(lang)).None? ==> r == files(DefaultLanguage).GetOr(map[])
  {
    match files(LocaleFile(lang))
    case Some(t) => t
    case None =>
      match files(DefaultLanguage)
      case Some(t) => t
      case None => map[]
  }

  /** With an empty cache the provider loads what the older hook loads. */
  lemma FirstLoadMatchesLegacy(lang: string, files: string -> Option<Dictionary>)
    ensures Load(map[], lang, files).0 == LoadLegacy(lang, files)
  {
  }

  /** Cached and fresh loads agree while the imports do not change: when every cached
      entry is what its file imports, the provider gives each language what the older
      hook would load, after a failed import too, since the English fallback is cached
      only under English. */
  lemma CachedLoadsAgreeWithLegacy(cache: Cache, lang: string, files: string -> Option<Dictionary>)
    requires forall l :: l in cache ==> files(LocaleFile(l)) == Some(cache[l])
    ensures Load(cache, lang, files).0 == LoadLegacy(lang, files)
  {
  }
}

=== FILE: poll_draft.dfy ===
/** The option editor and submit gate of the poll-creation page: a draft list of option
    texts that starts with four entries and never drops below two, and the checks run
    before the draft is posted. */
module PollDraft {
  import opened Wrappers
  import opened Text
  import opened SeqUtil
  import opened Json
  import PollsRoute

  const InitialOptions: seq<string> := ["React", "Vue", "Angular", "Svelte"]

  datatype Draft = Draft(title: string, description: string, options: seq<string>)

  function InitialDraft(): (d: Draft)
    ensures |d.options| == 4 && d.title == "" && d.description == ""
  {
    Draft("", "", InitialOptions)
  }

  /** `addOption`: one more, empty, option at the end. */
  function AddOption(d: Draft): (r: Draft)
    ensures |r.options| == |d.options| + 1 && r.options[..|d.options|] == d.options
    ensures r.options[|d.options|] == ""
    ensures r.title == d.title && r.description == d.description
  {
    d.(options := d.options + [""])
  }

  /** `removeOption`: drops the entry at `index` (none if it is out of range), but only
      while more than two remain. */
  function RemoveOption(d: Draft, index: int): (r: Draft)
    ensures |d.options| <= 2 ==> r == d
    ensures |d.options| > 2 && 0 <= index < |d.options| ==>
              r.options == d.options[..index] + d.options[index + 1..]
    ensures |d.options| > 2 && !(0 <= index < |d.options|) ==> r.options == d.options
    ensures r.title == d.title && r.description == d.description
  {
    if |d.options| > 2 then d.(options := DropAt(d.options, index)) else d
  }

  /** `options.filter((_, i) => i !== index)`. */
  function DropAt(s: seq<string>, index: int): (r: seq<string>)
    ensures 0 <= index < |s| ==> r == s[..index] + s[index + 1..]
    ensures !(0 <= index < |s|) ==> r == s
  {
    if |s| == 0 then []
    else
      var rest := DropAt(s[1..], index - 1);
      if index == 0 then
        rest
      else
        assert 0 < index < |s| ==> s[..index] == [s[0]] + s[1..][..index - 1];
        assert s == [s[0]] + s[1..];
        [s[0]] + rest
  }

  /** `updateOption`: replaces the entry at a rendered index. */
  function UpdateOption(d: Draft, index: nat, value: string): (r: Draft)
    requires index < |d.options|
    ensures |r.options| == |d.options| && r.options[index] == value
    ensures forall i :: 0 <= i < |d.options| && i != index ==> r.options[i] == d.options[i]
    ensures r.title == d.title && r.description == d.description
  {
    d.(options := d.options[index := value])
  }

  /** The "Add new option" input (Enter key or the + button): appends the trimmed value
      when it is not empty. */
  function AddNewOption(d: Draft, input: string): (r: Draft)
    ensures Trim(input) == "" ==> r == d
    ensures Trim(input) != "" ==> r.options == d.options + [Trim(input)]
    ensures r.title == d.title && r.description == d.description
  {
    var value := Trim(input);
    if value != "" then d.(options := d.options + [value]) else d
  }

  predicate IsBlank(s: string) {
    Trim(s) == ""
  }

  function NotBlank(s: string): bool {
    !IsBlank(s)
  }

  /** The outcome of `handleSubmit`'s checks: an error message, or the JSON payload. */
  datatype SubmitOutcome =
    | Rejected(message: string)
    | Payload(title: string, description: string, options: seq<string>)

  /** `handleSubmit` up to the request: the title check first, then the option count; the
      payload carries the trimmed title and description and the non-blank options,
      untrimmed, in their original order. */
  function Submit(d: Draft): (r: SubmitOutcome)
    ensures IsBlank(d.title) ==> r == Rejected("Poll title is required")
    ensures !IsBlank(d.title) && |Filter(d.options, NotBlank)| < 2 ==> r == Rejected("At least 2 options are required")
    ensures r.Payload? ==> r.title == Trim(d.title) && r.description == Trim(d.description)
    ensures r.Payload? <==> !IsBlank(d.title) && |Filter(d.options, NotBlank)| >= 2
    ensures r.Payload? ==> r.options == Filter(d.options, NotBlank)
    ensures r.Payload? ==> |r.options| >= 2 && forall i :: 0 <= i < |r.options| ==> !IsBlank(r.options[i]) && r.options[i] in d.options
  {
    if IsBlank(d.title) then Rejected("Poll title is required")
    else
      var valid := Filter(d.options, NotBlank);
      if |valid| < 2 then Rejected("At least 2 options are required")
      else Payload(Trim(d.title), Trim(d.description), valid)
  }

  /** The request body `JSON.stringify` produces for a payload. */
  function PayloadBody(r: SubmitOutcome): JVal
    requires r.Payload?
  {
    PollsRoute.EncodePollInput(PollsRoute.PollInput(r.title, Some(r.description), r.options))
  }

  /** A non-blank string is non-empty. */
  lemma NotBlankIsNonEmpty(s: string)
    requires !IsBlank(s)
    ensures |s| >= 1
  {
  }

  /** Every payload the page sends passes the server's schema, and the server reads back
      the same title, description and options. */
  lemma PayloadAcceptedByServer(d: Draft)
    requires !IsBlank(d.title) && |Filter(d.options, NotBlank)| >= 2
    ensures Submit(d).Payload?
    ensures PollsRoute.ParsePollInput(PayloadBody(Submit(d))) ==
              Some(PollsRoute.PollInput(Submit(d).title, Some(Submit(d).description), Submit(d).options))
  {
    var r := Submit(d);
    var input := PollsRoute.PollInput(r.title, Some(r.description), r.options);
    assert |r.title| >= 1;
    forall i | 0 <= i < |r.options| ensures |r.options[i]| >= 1 {
      NotBlankIsNonEmpty(r.options[i]);
    }
    PollsRoute.ParseEncodedInput(input);
  }

  /** The edits the page issues. `Update` and `Remove` carry an index the page renders. */
  datatype Edit = Add | Remove(index: int) | Update(index: int, value: string) | AddNew(input: string)

  predicate Issuable(d: Draft, e: Edit) {
    e.Update? ==> 0 <= e.index < |d.options|
  }

  function Apply(d: Draft, e: Edit): Draft
    requires Issuable(d, e)
  {
    match e
    case Add => AddOption(d)
    case Remove(i) => RemoveOption(d, i)
    case Update(i, v) => UpdateOption(d, i, v)
    case AddNew(input) => AddNewOption(d, input)
  }

  /** Applies a sequence of edits; `None` if one of them is not issuable at its turn. */
  function ApplyAll(d: Draft, edits: seq<Edit>): Option<Draft>
    decreases |edits|
  {
    if |edits| == 0 then Some(d)
    else if Issuable(d, edits[0]) then ApplyAll(Apply(d, edits[0]), edits[1..])
    else None
  }

  /** Starting from a draft with at least two options, no sequence of edits leaves fewer
      than two. */
  lemma {:induction false} NeverFewerThanTwo(d: Draft, edits: seq<Edit>)
    requires |d.options| >= 2
    requires ApplyAll(d, edits).Some?
    ensures |ApplyAll(d, edits).value.options| >= 2
    decreases |edits|
  {
    if |edits| > 0 {
      var next := Apply(d, edits[0]);
      assert |next.options| >= 2;
      NeverFewerThanTwo(next, edits[1..]);
    }
  }

  /** In particular from the initial draft. */
  lemma InitialDraftKeepsTwo(edits: seq<Edit>)
    requires ApplyAll(InitialDraft(), edits).Some?
    ensures |ApplyAll(InitialDraft(), edits).value.options| >= 2
  {
    NeverFewerThanTwo(InitialDraft(), edits);
  }
}

=== FILE: polls_route.dfy ===
/** The polls collection route (/api/polls): GET lists the active polls newest first with
    their vote counts; POST creates a poll with its options for a signed-in user after
    validating the body against `createPollSchema`. */
module PollsRoute {
  import opened Wrappers
  import opened SeqUtil
  import opened Json
  import opened Store

  // ---------------------------------------------------------------------------
  // createPollSchema

  /** A body that passed validation. */
  datatype PollInput = PollInput(title: string, description: Option<string>, options: seq<string>)

  /** `z.array(z.string().min(1))` applied to the items of `options`. */
  function OptionTexts(items: seq<JVal>): (r: Option<seq<string>>)
    ensures r.Some? <==> forall i :: 0 <= i < |items| ==> items[i].JStr? && |items[i].s| >= 1
    ensures r.Some? ==> |r.value| == |items| && forall i :: 0 <= i < |items| ==> r.value[i] == items[i].s
  {
    if |items| == 0 then Some([])
    else if items[0].JStr? && |items[0].s| >= 1 then
      match OptionTexts(items[1..])
      case None => None
      case Some(rest) => Some([items[0].s] + rest)
    else None
  }

  /** What the schema demands, stated field by field: an object whose `title` is a
      non-empty string, whose `description` is absent or a string, and whose `options` is
      an array of at least two non-empty strings. Nothing is trimmed. */
  ghost predicate ValidPollBody(body: JVal) {
    && body.JObj?
    && "title" in body.fields && body.fields["title"].JStr? && |body.fields["title"].s| >= 1
    && ("description" in body.fields ==> body.fields["description"].JStr?)
    && "options" in body.fields && body.fields["options"].JArr?
    && |body.fields["options"].items| >= 2
    && forall i :: 0 <= i < |body.fields["options"].items| ==>
         body.fields["options"].items[i].JStr? && |body.fields["options"].items[i].s| >= 1
  }

  /** `createPollSchema.parse(body)`: the validated input, or `None` for a ZodError. */
  function ParsePollInput(body: JVal): (r: Option<PollInput>)
    ensures r.Some? <==> ValidPollBody(body)
    ensures r.Some? ==> && r.value.title == body.fields["title"].s
                        && r.value.description == (if "description" in body.fields then Some(body.fields["description"].s) else None)
                        && |r.value.options| == |body.fields["options"].items|
                        && forall i :: 0 <= i < |r.value.options| ==> r.value.options[i] == body.fields["options"].items[i].s
  {
    var title := Member(body, "title");
    var description := Member(body, "description");
    var options := Member(body, "options");
    if !(title.Some? && title.value.JStr? && |title.value.s| >= 1) then None
    else if description.Some? && !description.value.JStr? then None
    else if !(options.Some? && options.value.JArr? && |options.value.items| >= 2) then None
    else
      match OptionTexts(options.value.items)
      case None => None
      case Some(texts) =>
        Some(PollInput(title.value.s, if description.Some? then Some(description.value.s) else None, texts))
  }

  /** An input the schema admits. */
  predicate AdmissibleInput(input: PollInput) {
    |input.title| >= 1 && |input.options| >= 2 && forall i :: 0 <= i < |input.options| ==> |input.options[i]| >= 1
  }

  /** The JSON body a client sends for an input. */
  function EncodePollInput(input: PollInput): JVal {
    var options := JArr(seq(|input.options|, i requires 0 <= i < |input.options| => JStr(input.options[i])));
    if input.description.Some? then
      JObj(map["title" := JStr(input.title), "description" := JStr(input.description.value), "options" := options])
    else
      JObj(map["title" := JStr(input.title), "options" := options])
  }

  /** Validation gives back exactly the input a client encoded, when the schema admits it. */
  lemma ParseEncodedInput(input: PollInput)
    requires AdmissibleInput(input)
    ensures ParsePollInput(EncodePollInput(input)) == Some(input)
  {
    var body := EncodePollInput(input);
    assert ValidPollBody(body);
    var r := ParsePollInput(body).value;
    assert r.options == input.options;
  }

  /** The server does no trimming: a blank title and blank options pass validation. */
  lemma BlankTextsPassValidation()
    ensures ParsePollInput(EncodePollInput(PollInput(" ", None, [" ", "\t"]))).Some?
  {
    ParseEncodedInput(PollInput(" ", None, [" ", "\t"]));
  }

  // ---------------------------------------------------------------------------
  // POST

  datatype CreateResponse =
    | Created(poll: Poll, options: seq<PollOption>)   // 201
    | Unauthorized                                    // 401
    | ValidationError                                 // 400
    | CreateFailed                                    // 500
  {
    function Status(): int {
      match this
      case Created(_, _) => 201
      case Unauthorized => 401
      case ValidationError => 400
      case CreateFailed => 500
    }
  }

  /** The rows `prisma.poll.create` writes for a validated input: a poll (active by
      default, no creator) and one option per text, in order. `ids` stands for the
      generated ids: `ids(0)` for the poll, `ids(i + 1)` for option i. */
  function NewPoll(input: PollInput, ids: nat -> string, now: int): (r: (Poll, seq<PollOption>))
    ensures r.0.title == input.title && r.0.description == input.description && r.0.isActive
    ensures |r.1| == |input.options|
    ensures forall i :: 0 <= i < |r.1| ==> r.1[i].text == input.options[i] && r.1[i].pollId == r.0.id
  {
    var poll := Poll(ids(0), input.title, input.description, true, now, None);
    (poll, seq(|input.options|, i requires 0 <= i < |input.options| => PollOption(ids(i + 1), poll.id, input.options[i], now)))
  }

  /** POST /api/polls. `body` is `None` when the request body is not JSON (the read
      throws, a 500); `writeFails` when the create query throws. */
  function CreatePoll(session: Option<SessionUser>, body: Option<JVal>, db: Db, ids: nat -> string, now: int, writeFails: bool): (r: (CreateResponse, Db))
    ensures session.None? ==> r == (Unauthorized, db)
    ensures r.0 == Unauthorized <==> session.None?
    ensures r.0 == CreateFailed <==> session.Some? && (body.None? || (ValidPollBody(body.value) && writeFails))
    ensures !r.0.Created? ==> r.1 == db
    ensures r.0.Status() == 400 <==> session.Some? && body.Some? && !ValidPollBody(body.value)
    ensures r.0.Created? <==> session.Some? && body.Some? && ValidPollBody(body.value) && !writeFails
    ensures r.0.Created? ==>
              && r.1 == db.(polls := db.polls + [r.0.poll], options := db.options + r.0.options)
              && r.0.poll.title == body.value.fields["title"].s
              && |r.0.options| == |body.value.fields["options"].items|
              && forall i :: 0 <= i < |r.0.options| ==>
                   r.0.options[i].text == body.value.fields["options"].items[i].s && r.0.options[i].pollId == r.0.poll.id
    ensures r.0.Created? ==> (r.0.poll, r.0.options) == NewPoll(ParsePollInput(body.value).value, ids, now)
  {
    if session.None? then (Unauthorized, db)
    else if body.None? then (CreateFailed, db)
    else
      match ParsePollInput(body.value)
      case None => (ValidationError, db)
      case Some(input) =>
        if writeFails then (CreateFailed, db)
        else
          var (poll, options) := NewPoll(input, ids, now);
          (Created(poll, options), db.(polls := db.polls + [poll], options := db.options + options))
  }

  // ---------------------------------------------------------------------------
  // GET

  datatype OptionListing = OptionListing(option: PollOption, votes: nat)

  datatype PollListing = PollListing(poll: Poll, options: seq<OptionListing>, votes: nat)

  function IsActive(p: Poll): bool {
    p.isActive
  }

  function ListingOf(db: Db, p: Poll): (r: PollListing)
    ensures r.poll == p && r.votes == PollVoteCount(db, p.id)
    ensures |r.options| == |OptionsOf(db, p.id)|
    ensures forall i :: 0 <= i < |r.options| ==>
              r.options[i].option == OptionsOf(db, p.id)[i] && r.options[i].votes == OptionVoteCount(db, r.options[i].option.id)
  {
    var os := OptionsOf(db, p.id);
    PollListing(p, seq(|os|, i requires 0 <= i < |os| => OptionListing(os[i], OptionVoteCount(db, os[i].id))), PollVoteCount(db, p.id))
  }

  function PollsOf(ls: seq<PollListing>): (r: seq<Poll>)
    ensures |r| == |ls| && forall i :: 0 <= i < |ls| ==> r[i] == ls[i].poll
  {
    seq(|ls|, i requires 0 <= i < |ls| => ls[i].poll)
  }

  /** One listing per poll, in the given order. */
  function Listings(db: Db, ps: seq<Poll>): (r: seq<PollListing>)
    ensures PollsOf(r) == ps
    ensures forall i :: 0 <= i < |r| ==> r[i] == ListingOf(db, ps[i])
  {
    var r := seq(|ps|, i requires 0 <= i < |ps| => ListingOf(db, ps[i]));
    assert PollsOf(r) == ps;
    r
  }

  /** The `where: { isActive: true }` filter ordered newest first. */
  function ActiveNewestFirst(db: Db): (r: seq<Poll>)
    ensures forall i :: 0 <= i < |r| ==> r[i].isActive
    ensures forall i, j :: 0 <= i < j < |r| ==> r[i].createdAt >= r[j].createdAt
    ensures multiset(r) == multiset(Filter(db.polls, IsActive))
  {
    var active := Filter(db.polls, IsActive);
    var sorted := SortDesc(active, PollCreatedAt);
    assert forall i :: 0 <= i < |sorted| ==> sorted[i].isActive by {
      forall i | 0 <= i < |sorted| ensures sorted[i].isActive {
        FilterMember(db.polls, IsActive, sorted[i]);
      }
    }
    sorted
  }

  /** Each listing of a run of polls is the full listing of the poll it carries. */
  lemma ListingsCarryTheirPolls(db: Db, ps: seq<Poll>)
    ensures forall i :: 0 <= i < |Listings(db, ps)| ==>
              Listings(db, ps)[i].poll == ps[i] && Listings(db, ps)[i] == ListingOf(db, Listings(db, ps)[i].poll)
  {
    var r := Listings(db, ps);
    forall i | 0 <= i < |r| ensures r[i].poll == ps[i] && r[i] == ListingOf(db, r[i].poll) {
      assert PollsOf(r)[i] == r[i].poll;
    }
  }

  /** The active polls, newest first, each with its options and vote counts. */
  function ActivePolls(db: Db): (r: seq<PollListing>)
    ensures forall i :: 0 <= i < |r| ==> r[i].poll.isActive && r[i] == ListingOf(db, r[i].poll)
    ensures forall i, j :: 0 <= i < j < |r| ==> r[i].poll.createdAt >= r[j].poll.createdAt
    ensures multiset(PollsOf(r)) == multiset(Filter(db.polls, IsActive))
  {
    var sorted := ActiveNewestFirst(db);
    ListingsCarryTheirPolls(db, sorted);
    Listings(db, sorted)
  }

  datatype ListResponse = Polls(polls: seq<PollListing>) | ListFailed

  /** GET /api/polls; `queryFails` when the query throws (a 500). */
  function ListPolls(db: Db, queryFails: bool): (r: ListResponse)
    ensures r.Polls? <==> !queryFails
    ensures r.Polls? ==> r.polls == ActivePolls(db)
  {
    if queryFails then ListFailed else Polls(ActivePolls(db))
  }

  /** A poll appears in the listing exactly when it is an active poll of the store. */
  lemma ListedIffActive(db: Db, p: Poll)
    ensures p in PollsOf(ActivePolls(db)) <==> p in db.polls && p.isActive
  {
    var ps := PollsOf(ActivePolls(db));
    assert p in ps <==> p in multiset(ps);
    var f := Filter(db.polls, IsActive);
    assert p in f <==> p in multiset(f);
    if p in db.polls && p.isActive {
      var k :| 0 <= k < |db.polls| && db.polls[k] == p;
      assert p in f;
    }
  }

  /** A created poll is stored active with the description sent (absent when none was),
      so the next listing of the polls route shows it. */
  lemma CreatedPollIsListed(session: Option<SessionUser>, body: Option<JVal>, db: Db, ids: nat -> string, now: int, writeFails: bool)
    requires CreatePoll(session, body, db, ids, now, writeFails).0.Created?
    ensures var (resp, db') := CreatePoll(session, body, db, ids, now, writeFails);
            && resp.poll.isActive
            && resp.poll.description == (if "description" in body.value.fields then Some(body.value.fields["description"].s) else None)
            && resp.poll in PollsOf(ActivePolls(db'))
  {
    var (resp, db') := CreatePoll(session, body, db, ids, now, writeFails);
    assert db'.polls[|db.polls|] == resp.poll;
    ListedIffActive(db', resp.poll);
  }
}

=== FILE: register.dfy ===
/** `POST /api/auth/register` and the request body the registration page sends.
    The route validates the body (name, email, password, confirmPassword and the
    password-equality refinement), refuses an email already stored, hashes the password
    and stores the user, answering with the user minus its password. Hashing and zod's
    email test are the parameters `hash` and `isEmail`. */
module Register {
  import opened Wrappers
  import opened Json
  import opened Store
  import Utils

  datatype Registration = Registration(name: string, email: string, password: string)

  /** The schema, stated field by field: an object with a non-empty string `name`, a
      string `email` zod accepts, a string `password` of at least six characters, a
      string `confirmPassword`, and the two passwords equal. */
  ghost predicate ValidRegistration(body: JVal, isEmail: string -> bool) {
    && body.JObj?
    && "name" in body.fields && body.fields["name"].JStr? && |body.fields["name"].s| >= 1
    && "email" in body.fields && body.fields["email"].JStr? && isEmail(body.fields["email"].s)
    && "password" in body.fields && body.fields["password"].JStr? && |body.fields["password"].s| >= 6
    && "confirmPassword" in body.fields && body.fields["confirmPassword"].JStr?
    && body.fields["password"].s == body.fields["confirmPassword"].s
  }

  /** A JSON string member of the body. */
  function StringMember(body: JVal, key: string): (r: Option<string>)
    ensures r.Some? <==> body.JObj? && key in body.fields && body.fields[key].JStr?
    ensures r.Some? ==> r.value == body.fields[key].s
  {
    match Member(body, key)
    case Some(JStr(s)) => Some(s)
    case _ => None
  }

  /** `registerSchema.parse(body)`: the validated registration, or `None` for a ZodError. */
  function ParseRegistration(body: JVal, isEmail: string -> bool): (r: Option<Registration>)
    ensures r.Some? <==> ValidRegistration(body, isEmail)
    ensures r.Some? ==> r.value == Registration(body.fields["name"].s, body.fields["email"].s, body.fields["password"].s)
  {
    var name := StringMember(body, "name");
    var email := StringMember(body, "email");
    var password := StringMember(body, "password");
    var confirm := StringMember(body, "confirmPassword");
    if !(name.Some? && |name.value| >= 1) then None
    else if !(email.Some? && isEmail(email.value)) then None
    else if !(password.Some? && |password.value| >= 6) then None
    else if confirm.None? then None
    else if password.value != confirm.value then None
    else Some(Registration(name.value, email.value, password.value))
  }

  /** The response body of a successful registration: the stored user without its
      password column. */
  datatype PublicUser = PublicUser(id: string, email: string, name: Option<string>, image: Option<string>, role: Role, createdAt: int)

  function PublicOf(u: User): PublicUser {
    PublicUser(u.id, u.email, u.name, u.image, u.role, u.createdAt)
  }

  datatype RegisterResponse =
    | Registered(user: PublicUser)
    | ValidationFailed       // a ZodError
    | EmailTaken
    | RegisterFailed         // the body is not JSON, or the store or the hashing throws
  {
    function Status(): int {
      match this
      case Registered(_) => 201
      case ValidationFailed => 400
      case EmailTaken => 400
      case RegisterFailed => 500
    }

    /** The `error` member of the response body, absent on success. */
    function Error(): Option<string> {
      match this
      case Registered(_) => None
      case ValidationFailed => Some("Validation error")
      case EmailTaken => Some("User with this email already exists")
      case RegisterFailed => Some("Failed to register user")
    }
  }

  /** Where the store or the hashing throws, if anywhere: `LookupFault` when the client
      cannot be obtained or `findUnique` throws, `WriteFault` when `hashPassword` or
      `create` throws. */
  datatype StoreFault = NoFault | LookupFault | WriteFault

  /** The row a valid registration creates: role USER, no image, the hashed password. */
  function NewUser(reg: Registration, hash: string -> string, id: string, now: int): User {
    User(id, reg.email, Some(reg.name), Some(hash(reg.password)), None, UserRole, now)
  }

  /** `POST(request)`. `body` is `None` when the request is not JSON; `fault` says which
      store step, if any, throws. */
  function Post(body: Option<JVal>, db: Db, isEmail: string -> bool, hash: string -> string,
                newId: string, now: int, fault: StoreFault): (r: (RegisterResponse, Db))
    ensures body.None? ==> r == (RegisterFailed, db)
    ensures r.0 == ValidationFailed <==> body.Some? && !ValidRegistration(body.value, isEmail)
    ensures r.0 == EmailTaken <==>
              body.Some? && ValidRegistration(body.value, isEmail) && fault != LookupFault
              && FindUser(db.users, body.value.fields["email"].s).Some?
    ensures r.0 == RegisterFailed <==>
              body.None?
              || (ValidRegistration(body.value, isEmail)
                  && (fault == LookupFault
                      || (fault == WriteFault && FindUser(db.users, body.value.fields["email"].s).None?)))
    ensures !r.0.Registered? ==> r.1 == db
    ensures r.0.Registered? ==>
              var reg := ParseRegistration(body.value, isEmail).value;
              && fault == NoFault
              && FindUser(db.users, reg.email).None?
              && r.1 == db.(users := db.users + [NewUser(reg, hash, newId, now)])
              && r.0.user == PublicOf(NewUser(reg, hash, newId, now))
              && r.0.Status() == 201
  {
    if body.None? then (RegisterFailed, db)
    else
      match ParseRegistration(body.value, isEmail)
      case None => (ValidationFailed, db)
      case Some(reg) =>
        if fault == LookupFault then (RegisterFailed, db)
        else if FindUser(db.users, reg.email).Some? then (EmailTaken, db)
        else if fault == WriteFault then (RegisterFailed, db)
        else
          var u := NewUser(reg, hash, newId, now);
          (Registered(PublicOf(u)), db.(users := db.users + [u]))
  }

  /** Whatever is posted, emails stay unique. */
  lemma PostKeepsEmailsUnique(body: Option<JVal>, db: Db, isEmail: string -> bool, hash: string -> string,
                              newId: string, now: int, fault: StoreFault)
    requires UniqueEmails(db.users)
    ensures UniqueEmails(Post(body, db, isEmail, hash, newId, now, fault).1.users)
  {
    var r := Post(body, db, isEmail, hash, newId, now, fault);
    if r.0.Registered? {
      AddUserKeepsUnique(db.users, NewUser(ParseRegistration(body.value, isEmail).value, hash, newId, now));
    }
  }

  /** A series of registrations, the i-th with id `ids(i)` at time `now + i` and store
      fault `faults(i)`. */
  function PostAll(bodies: seq<Option<JVal>>, db: Db, isEmail: string -> bool, hash: string -> string,
                   ids: nat -> string, now: int, faults: nat -> StoreFault): (r: Db)
    ensures |r.users| <= |db.users| + |bodies|
    ensures r.polls == db.polls && r.options == db.options && r.votes == db.votes
    decreases |bodies|
  {
    if |bodies| == 0 then db
    else
      var db1 := Post(bodies[0], db, isEmail, hash, ids(0), now, faults(0)).1;
      PostAll(bodies[1..], db1, isEmail, hash, (k: nat) => ids(k + 1), now + 1, (k: nat) => faults(k + 1))
  }

  /** However many registrations arrive, no two stored users share an email. */
  lemma {:induction false} PostAllKeepsEmailsUnique(bodies: seq<Option<JVal>>, db: Db, isEmail: string -> bool,
                                                    hash: string -> string, ids: nat -> string, now: int,
                                                    faults: nat -> StoreFault)
    requires UniqueEmails(db.users)
    ensures UniqueEmails(PostAll(bodies, db, isEmail, hash, ids, now, faults).users)
    decreases |bodies|
  {
    if |bodies| > 0 {
      PostKeepsEmailsUnique(bodies[0], db, isEmail, hash, ids(0), now, faults(0));
      var db1 := Post(bodies[0], db, isEmail, hash, ids(0), now, faults(0)).1;
      PostAllKeepsEmailsUnique(bodies[1..], db1, isEmail, hash, (k: nat) => ids(k + 1), now + 1, (k: nat) => faults(k + 1));
    }
  }

  /** The schema's `min(6)` and the shared `validatePassword` are the same rule: a body
      whose other fields pass is accepted exactly when `validatePassword` accepts its
      password. */
  lemma ValidatePasswordIsSchemaRule(body: JVal, isEmail: string -> bool)
    requires body.JObj? && "name" in body.fields && "email" in body.fields
    requires "password" in body.fields && "confirmPassword" in body.fields
    requires body.fields["name"].JStr? && |body.fields["name"].s| >= 1
    requires body.fields["email"].JStr? && isEmail(body.fields["email"].s)
    requires body.fields["password"].JStr? && body.fields["confirmPassword"] == body.fields["password"]
    ensures ParseRegistration(body, isEmail).Some? <==> Utils.ValidatePassword(body.fields["password"].s)
  {
  }

  /** A body without `confirmPassword` is a validation error, whatever else it holds. */
  lemma MissingConfirmationRejected(body: JVal, db: Db, isEmail: string -> bool, hash: string -> string,
                                    newId: string, now: int, fault: StoreFault)
    requires body.JObj? && "confirmPassword" !in body.fields
    ensures Post(Some(body), db, isEmail, hash, newId, now, fault) == (ValidationFailed, db)
  {
  }

  // ---------------------------------------------------------------------------
  // The registration page

  datatype RegisterForm = RegisterForm(name: string, email: string, password: string)

  /** The page's own check before sending: a password of at least six characters. */
  function PageAccepts(form: RegisterForm): (ok: bool)
    ensures ok <==> Utils.ValidatePassword(form.password)
  {
    |form.password| >= 6
  }

  /** The body the page sends, as written: name, email and password only. */
  function PageBody(form: RegisterForm): (b: JVal)
    ensures b.JObj? && "confirmPassword" !in b.fields
    ensures b.fields.Keys == {"name", "email", "password"}
  {
    JObj(map["name" := JStr(form.name), "email" := JStr(form.email), "password" := JStr(form.password)])
  }

  /** What the page evidently means to send: the form's password confirmed. */
  function PageBodyCorrected(form: RegisterForm): (b: JVal)
    ensures b.JObj? && b.fields.Keys == {"name", "email", "password", "confirmPassword"}
    ensures b.fields["confirmPassword"] == b.fields["password"] == JStr(form.password)
    ensures b.fields["name"] == JStr(form.name) && b.fields["email"] == JStr(form.email)
  {
    JObj(map["name" := JStr(form.name), "email" := JStr(form.email), "password" := JStr(form.password),
             "confirmPassword" := JStr(form.password)])
  }

  /** As written, every registration sent from the page is refused with 400
      "Validation error" and stores nothing, however well the form is filled in. */
  lemma PageRegistrationAlwaysRejected(form: RegisterForm, db: Db, isEmail: string -> bool, hash: string -> string,
                                       newId: string, now: int, fault: StoreFault)
    ensures Post(Some(PageBody(form)), db, isEmail, hash, newId, now, fault) == (ValidationFailed, db)
    ensures Post(Some(PageBody(form)), db, isEmail, hash, newId, now, fault).0.Status() == 400
  {
  }

  /** The page's check and the server's schema agree on passwords: for a form with a
      name and an email zod accepts, the confirmed body passes the schema exactly when
      the page lets the form through. */
  lemma PageCheckMatchesSchema(form: RegisterForm, isEmail: string -> bool)
    requires |form.name| >= 1 && isEmail(form.email)
    ensures ParseRegistration(PageBodyCorrected(form), isEmail).Some? <==> PageAccepts(form)
  {
  }

  /** With the confirmation sent, a form the page accepts, with a name, an email zod
      accepts and not yet stored, registers exactly that user unless the store or the
      hashing throws, which answers 500 and stores nothing. */
  lemma CorrectedPageRegistrationAccepted(form: RegisterForm, db: Db, isEmail: string -> bool, hash: string -> string,
                                          newId: string, now: int, fault: StoreFault)
    requires PageAccepts(form) && |form.name| >= 1 && isEmail(form.email)
    requires FindUser(db.users, form.email).None?
    ensures fault != NoFault ==> Post(Some(PageBodyCorrected(form)), db, isEmail, hash, newId, now, fault) == (RegisterFailed, db)
    ensures var r := Post(Some(PageBodyCorrected(form)), db, isEmail, hash, newId, now, fault);
            fault == NoFault ==>
            && r.0.Registered? && r.0.Status() == 201
            && r.0.user == PublicOf(NewUser(Registration(form.name, form.email, form.password), hash, newId, now))
            && r.1.users == db.users + [NewUser(Registration(form.name, form.email, form.password), hash, newId, now)]
  {
    assert ValidRegistration(PageBodyCorrected(form), isEmail);
  }
}

=== FILE: retry.dfy ===
/** `withRetry`: runs an operation up to maxRetries + 1 times, returning the first success
    and rethrowing the last error when every attempt fails. The backoff delay and its
    random jitter only decide when the next attempt starts, so they are not modelled;
    the operation's outcome on each attempt is a function of the attempt number. */
module Retry {

  datatype Attempt<+T> = Done(value: T) | Threw(error: string)

  /** Attempts `attempt`, `attempt + 1`, ..., `maxRetries`; the result and the number of
      calls made in total since attempt 0. */
  function RetryFrom<T>(op: nat -> Attempt<T>, attempt: nat, maxRetries: nat): (r: (Attempt<T>, nat))
    requires attempt <= maxRetries
    ensures attempt + 1 <= r.1 <= maxRetries + 1
    ensures r.0 == op(r.1 - 1)
    ensures forall k :: attempt <= k < r.1 - 1 ==> op(k).Threw?
    ensures r.0.Threw? ==> r.1 == maxRetries + 1
    decreases maxRetries - attempt
  {
    match op(attempt)
    case Done(v) => (Done(v), attempt + 1)
    case Threw(e) =>
      if attempt == maxRetries then (Threw(e), attempt + 1)
      else RetryFrom(op, attempt + 1, maxRetries)
  }

  /** `withRetry(operation, maxRetries)`: the outcome and how many times the operation ran.
      At most maxRetries + 1 calls; a success is the first one; a failure is the error of
      the last attempt, after every attempt failed. */
  function WithRetry<T>(op: nat -> Attempt<T>, maxRetries: nat): (r: (Attempt<T>, nat))
    ensures 1 <= r.1 <= maxRetries + 1
    ensures r.0 == op(r.1 - 1)
    ensures forall k :: 0 <= k < r.1 - 1 ==> op(k).Threw?
    ensures r.0.Threw? ==> r.1 == maxRetries + 1 && forall k :: 0 <= k <= maxRetries ==> op(k).Threw?
  {
    RetryFrom(op, 0, maxRetries)
  }

  /** A database call that fails (times out) on its first `failures` attempts and then
      returns `value`. */
  function Flaky<T>(failures: nat, value: T): nat -> Attempt<T> {
    k => if k < failures then Threw("Operation timed out") else Done(value)
  }

  /** A call that fails transiently succeeds under withRetry exactly when it fails at
      most maxRetries times, after failures + 1 calls. */
  lemma FlakyOutcome<T>(failures: nat, value: T, maxRetries: nat)
    ensures WithRetry(Flaky(failures, value), maxRetries).0.Done? <==> failures <= maxRetries
    ensures failures <= maxRetries ==> WithRetry(Flaky(failures, value), maxRetries) == (Done(value), failures + 1)
  {
    var op := Flaky(failures, value);
    var r := WithRetry(op, maxRetries);
    if failures <= maxRetries {
      assert op(failures).Done?;
      assert r.1 - 1 >= failures;
    } else {
      assert op(r.1 - 1).Threw?;
    }
  }
}

=== FILE: seq_util.dfy ===
/** Sequence operations standing in for the query clauses of the data layer:
    `where` (Filter), `orderBy` on a timestamp (SortDesc / SortAsc) and `take`/`skip` (Slice). */
module SeqUtil {

  /** The elements of `s` that satisfy `p`, in their original order (`where`). */
  function Filter<T>(s: seq<T>, p: T -> bool): (r: seq<T>)
    ensures |r| <= |s|
    ensures forall i :: 0 <= i < |r| ==> p(r[i]) && r[i] in s
    ensures forall i :: 0 <= i < |s| && p(s[i]) ==> s[i] in r
    ensures multiset(r) <= multiset(s)
  {
    if |s| == 0 then []
    else
      var tail := s[1..];
      var rest := Filter(tail, p);
      assert s == [s[0]] + tail;
      var r := if p(s[0]) then [s[0]] + rest else rest;
      assert forall i :: 0 <= i < |s| && p(s[i]) ==> s[i] in r by {
        forall i | 0 <= i < |s| && p(s[i]) ensures s[i] in r {
          if i > 0 {
            assert s[i] == tail[i - 1];
          }
        }
      }
      r
  }

  /** Number of elements of `s` that satisfy `p` (`count` with a `where`). */
  function Count<T>(s: seq<T>, p: T -> bool): (n: nat)
    ensures n <= |s|
  {
    |Filter(s, p)|
  }

  /** Appending one element adds it to the count exactly when it satisfies `p`. */
  lemma {:induction false} CountSnoc<T>(s: seq<T>, x: T, p: T -> bool)
    ensures Count(s + [x], p) == Count(s, p) + (if p(x) then 1 else 0)
  {
    if |s| > 0 {
      CountSnoc(s[1..], x, p);
      assert (s + [x])[1..] == s[1..] + [x];
    }
  }

  lemma {:induction false} FilterAll<T>(s: seq<T>, p: T -> bool)
    requires forall i :: 0 <= i < |s| ==> p(s[i])
    ensures Filter(s, p) == s
  {
    if |s| > 0 {
      FilterAll(s[1..], p);
      assert s == [s[0]] + s[1..];
    }
  }

  ghost predicate SortedDesc<T>(s: seq<T>, key: T -> int) {
    forall i, j :: 0 <= i < j < |s| ==> key(s[i]) >= key(s[j])
  }

  ghost predicate SortedAsc<T>(s: seq<T>, key: T -> int) {
    forall i, j :: 0 <= i < j < |s| ==> key(s[i]) <= key(s[j])
  }

  /** An element no smaller than the head of a sorted sequence can go in front of it. */
  lemma ConsSortedDesc<T>(y: T, t: seq<T>, key: T -> int)
    requires SortedDesc(t, key) && (|t| > 0 ==> key(y) >= key(t[0]))
    ensures SortedDesc([y] + t, key)
  {
    var r := [y] + t;
    forall i, j | 0 <= i < j < |r| ensures key(r[i]) >= key(r[j]) {
      if i > 0 {
        assert r[i] == t[i - 1] && r[j] == t[j - 1];
      } else {
        assert r[j] == t[j - 1];
      }
    }
  }

  /** Inserts `x` in front of the first element whose key is not larger than its own. */
  function InsertDesc<T>(x: T, s: seq<T>, key: T -> int): (r: seq<T>)
    requires SortedDesc(s, key)
    ensures |r| == |s| + 1
    ensures SortedDesc(r, key)
    ensures multiset(r) == multiset(s) + multiset{x}
    ensures r[0] == x || (|s| > 0 && r[0] == s[0])
  {
    if |s| == 0 || key(x) >= key(s[0]) then
      ConsSortedDesc(x, s, key);
      [x] + s
    else
      var tail := s[1..];
      assert SortedDesc(tail, key);
      var rest := InsertDesc(x, tail, key);
      assert s == [s[0]] + tail;
      assert key(rest[0]) <= key(s[0]);
      ConsSortedDesc(s[0], rest, key);
      [s[0]] + rest
  }

  /** Stable insertion sort, largest key first (`orderBy: { key: 'desc' }`); elements with
      equal keys keep their store order. */
  function SortDesc<T>(s: seq<T>, key: T -> int): (r: seq<T>)
    ensures |r| == |s|
    ensures SortedDesc(r, key)
    ensures multiset(r) == multiset(s)
    ensures forall i :: 0 <= i < |r| ==> r[i] in s
  {
    if |s| == 0 then []
    else
      assert s == [s[0]] + s[1..];
      var r := InsertDesc(s[0], SortDesc(s[1..], key), key);
      assert forall i :: 0 <= i < |r| ==> r[i] in s by {
        forall i | 0 <= i < |r| ensures r[i] in s {
          assert r[i] in multiset(r);
        }
      }
      r
  }

  /** Smallest key first (`orderBy: { key: 'asc' }`). */
  function SortAsc<T>(s: seq<T>, key: T -> int): (r: seq<T>)
    ensures |r| == |s|
    ensures SortedAsc(r, key)
    ensures multiset(r) == multiset(s)
  {
    SortDesc(s, x => -key(x))
  }

  /** `take` / `skip`: the elements at positions [skip, skip + take) that exist. */
  function Slice<T>(s: seq<T>, skip: nat, take: nat): (r: seq<T>)
    ensures |r| == if skip >= |s| then 0 else if skip + take <= |s| then take else |s| - skip
    ensures forall i :: 0 <= i < |r| ==> r[i] == s[skip + i]
  {
    if skip >= |s| then [] else if skip + take <= |s| then s[skip..skip + take] else s[skip..]
  }

  /** Two consecutive slices of one size make up the slice of twice the size. */
  lemma SliceTile<T>(s: seq<T>, skip: nat, take: nat)
    ensures Slice(s, skip, take) + Slice(s, skip + take, take) == Slice(s, skip, 2 * take)
  {
    if skip + take < |s| {
      assert Slice(s, skip, take) == s[skip..skip + take];
      if skip + 2 * take <= |s| {
        assert s[skip..skip + take] + s[skip + take..skip + 2 * take] == s[skip..skip + 2 * take];
      } else {
        assert s[skip..skip + take] + s[skip + take..] == s[skip..];
      }
    }
  }

  /** Whatever `Filter` keeps satisfies the predicate. */
  lemma FilterMember<T>(s: seq<T>, p: T -> bool, x: T)
    requires x in Filter(s, p)
    ensures p(x) && x in s
  {
    var r := Filter(s, p);
    var i :| 0 <= i < |r| && r[i] == x;
  }

  /** The first `n` elements of a sorted sequence: a sorted sub-multiset, and nothing
      left out has a larger key than anything kept. */
  lemma TakeSorted<T>(s: seq<T>, key: T -> int, n: nat)
    requires SortedDesc(s, key)
    ensures SortedDesc(Slice(s, 0, n), key)
    ensures multiset(Slice(s, 0, n)) <= multiset(s)
    ensures forall x, i :: x in s && x !in Slice(s, 0, n) && 0 <= i < |Slice(s, 0, n)| ==> key(Slice(s, 0, n)[i]) >= key(x)
  {
    var r := Slice(s, 0, n);
    assert r == s[..|r|];
    assert s == r + s[|r|..];
    forall x, i | x in s && x !in r && 0 <= i < |r| ensures key(r[i]) >= key(x) {
      PrefixOfSortedIsNewest(s, key, n, x);
      assert r[i] in r;
    }
  }

  /** Every element a sorted prefix leaves out has a key no larger than any element it keeps. */
  lemma PrefixOfSortedIsNewest<T>(s: seq<T>, key: T -> int, n: nat, x: T)
    requires SortedDesc(s, key)
    requires x in s && x !in Slice(s, 0, n)
    ensures forall y :: y in Slice(s, 0, n) ==> key(y) >= key(x)
  {
    var k :| 0 <= k < |s| && s[k] == x;
    var top := Slice(s, 0, n);
    assert k >= |top| by {
      assert forall i :: 0 <= i < |top| ==> s[i] == top[i] != x;
    }
    forall y | y in top ensures key(y) >= key(x) {
      var i :| 0 <= i < |top| && top[i] == y;
      assert s[i] == y;
    }
  }
}

=== FILE: setup_admin.dfy ===
/** `GET /api/setup-admin`: promotes one hard-coded account to ADMIN. The lookup and the
    update touch only that email; a failing store call answers 500 (`fails`). */
module SetupAdmin {
  import opened Wrappers
  import opened Store

  const TargetEmail: string := "calinecoralie0@gmail.com"

  /** The columns the route selects and returns. */
  datatype AdminView = AdminView(id: string, email: string, name: Option<string>, role: Role)

  function ViewOf(u: User): AdminView {
    AdminView(u.id, u.email, u.name, u.role)
  }

  datatype SetupResponse =
    | TargetMissing
    | AlreadyAdmin(user: AdminView)
    | Promoted(user: AdminView)
    | SetupFailed
  {
    /** The `success` member of the response body. */
    predicate Success() {
      AlreadyAdmin? || Promoted?
    }

    function Status(): int {
      if SetupFailed? then 500 else 200
    }

    function Message(): string {
      match this
      case TargetMissing => "User not found. Please sign in with Google OAuth first."
      case AlreadyAdmin(_) => "User is already an admin!"
      case Promoted(_) => "User is now an admin! Please sign out and sign back in."
      case SetupFailed => "Failed to set up admin"
    }
  }

  /** `GET()`. */
  function Setup(db: Db, fails: bool): (r: (SetupResponse, Db))
    ensures fails ==> r == (SetupFailed, db)
    ensures !r.0.Promoted? ==> r.1 == db
    ensures r.0 == TargetMissing <==> !fails && FindUser(db.users, TargetEmail).None?
    ensures r.0.AlreadyAdmin? <==> !fails && FindUser(db.users, TargetEmail).Some? && FindUser(db.users, TargetEmail).value.role == AdminRole
    ensures r.0.Promoted? ==>
              && FindUser(db.users, TargetEmail).Some? && FindUser(db.users, TargetEmail).value.role != AdminRole
              && var k := UserIndex(db.users, TargetEmail).value;
                 && r.1 == db.(users := db.users[k := db.users[k].(role := AdminRole)])
                 && r.0.user == ViewOf(r.1.users[k]) && r.0.user.role == AdminRole
  {
    if fails then (SetupFailed, db)
    else
      match UserIndex(db.users, TargetEmail)
      case None => (TargetMissing, db)
      case Some(k) =>
        assert FindUser(db.users, TargetEmail) == Some(db.users[k]);
        if db.users[k].role == AdminRole then (AlreadyAdmin(ViewOf(db.users[k])), db)
        else
          var promoted := db.users[k].(role := AdminRole);
          (Promoted(ViewOf(promoted)), ReplaceUser(db, k, promoted))
  }

  /** A promotion changes the target's role and nothing else: every other user, every
      other column and every other table stays as it was. */
  lemma OnlyTargetChanges(db: Db)
    requires Setup(db, false).0.Promoted?
    ensures var db' := Setup(db, false).1;
            && |db'.users| == |db.users|
            && db'.polls == db.polls && db'.options == db.options && db'.votes == db.votes
            && (forall i :: 0 <= i < |db.users| && db.users[i].email != TargetEmail ==> db'.users[i] == db.users[i])
            && (forall i :: 0 <= i < |db.users| ==> db'.users[i].(role := db.users[i].role) == db.users[i])
  {
    var k := UserIndex(db.users, TargetEmail).value;
    var db' := Setup(db, false).1;
    forall i | 0 <= i < |db.users| ensures db'.users[i].(role := db.users[i].role) == db.users[i] {
      if i == k {
        assert db'.users[i] == db.users[k].(role := AdminRole);
      }
    }
  }

  /** Calling the route twice is calling it once: the second call reports the target as
      already an admin and changes nothing. */
  lemma Idempotent(db: Db)
    requires Setup(db, false).0.Success()
    ensures var db' := Setup(db, false).1;
            Setup(db', false).0.AlreadyAdmin? && Setup(db', false).1 == db'
  {
    var db' := Setup(db, false).1;
    if Setup(db, false).0.Promoted? {
      var k := UserIndex(db.users, TargetEmail).value;
      assert forall i :: 0 <= i < k ==> db'.users[i] == db.users[i];
      assert UserIndex(db'.users, TargetEmail) == Some(k);
    }
  }

  /** The route reads nothing but the target's row: two stores that agree on it get the
      same answer. */
  lemma OnlyTargetRead(db1: Db, db2: Db)
    requires FindUser(db1.users, TargetEmail) == FindUser(db2.users, TargetEmail)
    ensures Setup(db1, false).0 == Setup(db2, false).0
  {
  }
}

=== FILE: store.dfy ===
/** The relational schema (User, Poll, Option, Vote) as an in-memory store, the queries the
    routes share, and the authenticated session the routes read. Timestamps (`createdAt`)
    are integer milliseconds since the epoch. */
module Store {
  import opened Wrappers
  import opened SeqUtil

  datatype Role = UserRole | AdminRole

  datatype User = User(
    id: string,
    email: string,
    name: Option<string>,
    password: Option<string>,   // bcrypt hash; absent for accounts created through OAuth
    image: Option<string>,
    role: Role,
    createdAt: int)

  datatype Poll = Poll(
    id: string,
    title: string,
    description: Option<string>,
    isActive: bool,
    createdAt: int,
    creatorId: Option<string>)

  datatype PollOption = PollOption(id: string, pollId: string, text: string, createdAt: int)

  datatype Vote = Vote(
    id: string,
    pollId: string,
    optionId: string,
    userId: Option<string>,
    sessionId: Option<string>,
    ipAddress: Option<string>,
    createdAt: int)

  /** The four tables, each in insertion order. */
  datatype Db = Db(users: seq<User>, polls: seq<Poll>, options: seq<PollOption>, votes: seq<Vote>)

  /** The `session.user` object the server reads; `None` when there is no session or no user. */
  datatype SessionUser = SessionUser(id: string, name: string, email: string, image: string, role: Role)

  /** The admin gate of the admin routes: a session user whose role is ADMIN. */
  predicate IsAdmin(session: Option<SessionUser>) {
    session.Some? && session.value.role == AdminRole
  }

  /** `_count: { votes: true }` of a poll. */
  function PollVoteCount(db: Db, pollId: string): (n: nat)
    ensures n <= |db.votes|
  {
    Count(db.votes, (v: Vote) => v.pollId == pollId)
  }

  /** `_count: { votes: true }` of an option. */
  function OptionVoteCount(db: Db, optionId: string): (n: nat)
    ensures n <= |db.votes|
  {
    Count(db.votes, (v: Vote) => v.optionId == optionId)
  }

  /** The options of a poll, in store order. */
  function OptionsOf(db: Db, pollId: string): (r: seq<PollOption>)
    ensures forall i :: 0 <= i < |r| ==> r[i].pollId == pollId && r[i] in db.options
    ensures forall o :: o in db.options && o.pollId == pollId ==> o in r
  {
    Filter(db.options, (o: PollOption) => o.pollId == pollId)
  }

  /** Emails are a unique column. */
  ghost predicate UniqueEmails(users: seq<User>) {
    forall i, j :: 0 <= i < j < |users| ==> users[i].email != users[j].email
  }

  /** Position of the user with the given email (`findUnique({ where: { email } })`). */
  function UserIndex(users: seq<User>, email: string): (r: Option<nat>)
    ensures r.Some? ==> r.value < |users| && users[r.value].email == email
    ensures r.Some? ==> forall i :: 0 <= i < r.value ==> users[i].email != email
    ensures r.None? <==> forall i :: 0 <= i < |users| ==> users[i].email != email
  {
    if |users| == 0 then None
    else if users[0].email == email then Some(0)
    else
      match UserIndex(users[1..], email)
      case None => None
      case Some(k) => Some(k + 1)
  }

  function FindUser(users: seq<User>, email: string): (r: Option<User>)
    ensures r.Some? ==> r.value in users && r.value.email == email
    ensures r.None? <==> forall i :: 0 <= i < |users| ==> users[i].email != email
  {
    match UserIndex(users, email)
    case None => None
    case Some(k) => Some(users[k])
  }

  /** With unique emails the user found is the one holding that email. */
  lemma FindUserUnique(users: seq<User>, u: User)
    requires UniqueEmails(users) && u in users
    ensures FindUser(users, u.email) == Some(u)
  {
    var k :| 0 <= k < |users| && users[k] == u;
    var j := UserIndex(users, u.email).value;
    assert j == k by {
      assert users[j].email == users[k].email;
    }
  }

  /** The store with the user at `k` replaced by `u`. */
  function ReplaceUser(db: Db, k: nat, u: User): (r: Db)
    requires k < |db.users|
    ensures |r.users| == |db.users| && r.users[k] == u
    ensures forall i :: 0 <= i < |db.users| && i != k ==> r.users[i] == db.users[i]
    ensures r.polls == db.polls && r.options == db.options && r.votes == db.votes
  {
    db.(users := db.users[k := u])
  }

  /** Appending a user with a new email keeps emails unique. */
  lemma AddUserKeepsUnique(users: seq<User>, u: User)
    requires UniqueEmails(users)
    requires FindUser(users, u.email).None?
    ensures UniqueEmails(users + [u])
  {
  }

  /** Changing a user's role keeps emails unique. */
  lemma SetRoleKeepsUnique(users: seq<User>, k: nat, role: Role)
    requires UniqueEmails(users) && k < |users|
    ensures UniqueEmails(users[k := users[k].(role := role)])
  {
  }

  /** `findUnique({ where: { id } })` on polls. */
  function FindPoll(polls: seq<Poll>, id: string): (r: Option<Poll>)
    ensures r.Some? ==> r.value in polls && r.value.id == id
    ensures r.None? <==> forall i :: 0 <= i < |polls| ==> polls[i].id != id
  {
    if |polls| == 0 then None
    else if polls[0].id == id then Some(polls[0])
    else FindPoll(polls[1..], id)
  }

  function PollCreatedAt(p: Poll): int { p.createdAt }
}

=== FILE: text.dfy ===
/** String primitives of the ECMAScript runtime the application relies on:
    `String.prototype.trim`, `split` on a one-character separator, `Array.prototype.join`,
    and the decimal rendering of integers by `Number.prototype.toString`. */
module Text {

  /** The code points matched by `\s` in an ECMAScript regular expression and removed by
      `String.prototype.trim`: the WhiteSpace and LineTerminator productions. */
  predicate IsSpace(c: char) {
    || c in {'\t', '\n', '\U{000B}', '\U{000C}', '\r', ' ', '\U{00A0}', '\U{1680}'}
    || c in {'\U{2028}', '\U{2029}', '\U{202F}', '\U{205F}', '\U{3000}', '\U{FEFF}'}
    || ('\U{2000}' <= c <= '\U{200A}')
  }

  predicate AllSpace(s: string) {
    forall i :: 0 <= i < |s| ==> IsSpace(s[i])
  }

  /** Drops leading white space. */
  function TrimStart(s: string): (r: string)
    ensures |r| <= |s| && r == s[|s| - |r|..]
    ensures AllSpace(s[..|s| - |r|])
    ensures |r| > 0 ==> !IsSpace(r[0])
  {
    if |s| > 0 && IsSpace(s[0]) then
      var r := TrimStart(s[1..]);
      SuffixOfTail(s, r);
      SpacePrefixCons(s, |s| - |r|);
      r
    else s
  }

  /** A suffix of the tail of `s` is a suffix of `s`. */
  lemma SuffixOfTail<T>(s: seq<T>, r: seq<T>)
    requires |s| > 0 && |r| <= |s| - 1 && r == s[1..][|s| - 1 - |r|..]
    ensures r == s[|s| - |r|..]
  {
  }

  /** White space followed by a white-space prefix of the rest is a white-space prefix. */
  lemma SpacePrefixCons(s: string, m: nat)
    requires 0 < m <= |s| && IsSpace(s[0]) && AllSpace(s[1..][..m - 1])
    ensures AllSpace(s[..m])
  {
    forall i | 0 < i < m ensures IsSpace(s[i]) {
      assert s[i] == s[1..][..m - 1][i - 1];
    }
  }

  /** Drops trailing white space. */
  function TrimEnd(s: string): (r: string)
    ensures |r| <= |s| && r == s[..|r|]
    ensures AllSpace(s[|r|..])
    ensures |r| > 0 ==> !IsSpace(r[|r| - 1])
  {
    if |s| > 0 && IsSpace(s[|s| - 1]) then
      var r := TrimEnd(s[..|s| - 1]);
      assert s[|r|..] == s[..|s| - 1][|r|..] + [s[|s| - 1]];
      r
    else s
  }

  /** `String.prototype.trim`: the string without leading and trailing white space. */
  function Trim(s: string): (r: string)
    ensures |r| <= |s|
    ensures |r| > 0 ==> !IsSpace(r[0]) && !IsSpace(r[|r| - 1])
    ensures r == [] <==> AllSpace(s)
    ensures exists a, b :: 0 <= a <= b <= |s| && r == s[a..b] && AllSpace(s[..a]) && AllSpace(s[b..])
  {
    var t := TrimStart(s);
    var r := TrimEnd(t);
    TrimPieces(s, t, r);
    r
  }

  /** What `Trim` promises, from what `TrimStart` and `TrimEnd` promise. */
  lemma TrimPieces(s: string, t: string, r: string)
    requires |t| <= |s| && t == s[|s| - |t|..] && AllSpace(s[..|s| - |t|])
    requires |t| > 0 ==> !IsSpace(t[0])
    requires |r| <= |t| && r == t[..|r|] && AllSpace(t[|r|..])
    requires |r| > 0 ==> !IsSpace(r[|r| - 1])
    ensures |r| <= |s|
    ensures |r| > 0 ==> !IsSpace(r[0]) && !IsSpace(r[|r| - 1])
    ensures r == [] <==> AllSpace(s)
    ensures exists a, b :: 0 <= a <= b <= |s| && r == s[a..b] && AllSpace(s[..a]) && AllSpace(s[b..])
  {
    PrefixOfSuffix(s, t, r);
    var a, b := |s| - |t|, |s| - |t| + |r|;
    assert 0 <= a <= b <= |s| && r == s[a..b] && AllSpace(s[..a]) && AllSpace(s[b..]);
    if r == [] {
      // t is all white space and does not start with any: it is empty
      assert t[0..] == t;
      assert |t| == 0;
      assert s[..|s|] == s;
    } else {
      assert r[0] == t[0] == s[a];
    }
  }

  /** A prefix `r` of a suffix `t` of `s` is a slice of `s`; what `t` drops after `r`
      is what `s` has after that slice. */
  lemma PrefixOfSuffix(s: string, t: string, r: string)
    requires |t| <= |s| && t == s[|s| - |t|..]
    requires |r| <= |t| && r == t[..|r|]
    ensures r == s[|s| - |t|..|s| - |t| + |r|]
    ensures s[|s| - |t| + |r|..] == t[|r|..]
  {
  }

  lemma {:induction false} TrimOfTrimmed(s: string)
    requires |s| == 0 || (!IsSpace(s[0]) && !IsSpace(s[|s| - 1]))
    ensures Trim(s) == s
  {
  }

  /** `s.split(sep)` for a one-character separator: the maximal separator-free pieces,
      in order; splitting the empty string yields one empty piece. */
  function Split(s: string, sep: char): (r: seq<string>)
    ensures |r| >= 1
    ensures forall i :: 0 <= i < |r| ==> sep !in r[i]
  {
    if |s| == 0 then [""]
    else
      var rest := Split(s[1..], sep);
      if s[0] == sep then [""] + rest
      else [[s[0]] + rest[0]] + rest[1..]
  }

  /** The first piece of a split is the prefix up to the first separator (or all of `s`). */
  lemma {:induction false} SplitFirst(s: string, sep: char)
    ensures var p := Split(s, sep)[0];
      |p| <= |s| && p == s[..|p|] && (|p| == |s| || s[|p|] == sep)
  {
    if |s| > 0 {
      SplitFirst(s[1..], sep);
    }
  }

  /** `parts.join(sep)` for a one-character separator. */
  function Join(parts: seq<string>, sep: char): (r: string)
    requires |parts| >= 1
    ensures |r| >= |parts| - 1
    ensures |parts[|parts| - 1]| <= |r| && r[|r| - |parts[|parts| - 1]|..] == parts[|parts| - 1]
  {
    if |parts| == 1 then parts[0]
    else parts[0] + [sep] + Join(parts[1..], sep)
  }

  /** Joining two or more pieces: the first, the separator, then the rest joined. */
  lemma JoinCons(parts: seq<string>, sep: char)
    requires |parts| >= 2
    ensures Join(parts, sep) == parts[0] + [sep] + Join(parts[1..], sep)
  {
  }

  /** One character in front of a string that split-and-join gives back. */
  lemma JoinSplitStep(s: string, sep: char)
    requires |s| > 0 && Join(Split(s[1..], sep), sep) == s[1..]
    ensures Join(Split(s, sep), sep) == s
  {
    if s[0] == sep {
      JoinSplitAtSep(s, sep);
    } else {
      JoinSplitInPiece(s, sep);
    }
  }

  /** The step of `JoinSplit` at a separator: an empty first piece. */
  lemma JoinSplitAtSep(s: string, sep: char)
    requires |s| > 0 && s[0] == sep && Join(Split(s[1..], sep), sep) == s[1..]
    ensures Join(Split(s, sep), sep) == s
  {
    var t := s[1..];
    var rest := Split(t, sep);
    var parts := [""] + rest;
    assert Split(s, sep) == parts;
    assert parts[1..] == rest;
    JoinCons(parts, sep);
    HeadThenTail(s, "", sep);
  }

  /** A sequence starting with `x` is `x` and its tail, after any empty prefix. */
  lemma HeadThenTail<T>(s: seq<T>, e: seq<T>, x: T)
    requires |s| > 0 && s[0] == x && e == []
    ensures [x] + s[1..] == s
    ensures e + [x] + s[1..] == s
  {
  }

  /** The step of `JoinSplit` at any other character: it starts the first piece. */
  lemma JoinSplitInPiece(s: string, sep: char)
    requires |s| > 0 && s[0] != sep && Join(Split(s[1..], sep), sep) == s[1..]
    ensures Join(Split(s, sep), sep) == s
  {
    var t := s[1..];
    var rest := Split(t, sep);
    var c := s[0];
    var parts := [[c] + rest[0]] + rest[1..];
    assert Split(s, sep) == parts;
    if |rest| == 1 {
      HeadThenTail(s, "", c);
      assert parts == [[c] + rest[0]];
    } else {
      var tail := Join(rest[1..], sep);
      assert parts[1..] == rest[1..];
      JoinCons(parts, sep);
      JoinCons(rest, sep);
      ConsGlue(s, rest[0], sep, tail);
    }
  }

  /** Putting the head of `s` back in front of a three-part rendering of its tail. */
  lemma ConsGlue<T>(s: seq<T>, a: seq<T>, x: T, tail: seq<T>)
    requires |s| > 0 && a + [x] + tail == s[1..]
    ensures ([s[0]] + a) + [x] + tail == s
  {
    assert ([s[0]] + a) + [x] + tail == [s[0]] + (a + [x] + tail);
  }

  /** Joining the pieces of a split gives back the string. */
  lemma {:induction false} JoinSplit(s: string, sep: char)
    ensures Join(Split(s, sep), sep) == s
  {
    if |s| > 0 {
      JoinSplit(s[1..], sep);
      JoinSplitStep(s, sep);
    }
  }

  /** Splitting a join of separator-free pieces gives back the pieces. */
  lemma {:induction false} SplitJoin(parts: seq<string>, sep: char)
    requires |parts| >= 1
    requires forall i :: 0 <= i < |parts| ==> sep !in parts[i]
    ensures Split(Join(parts, sep), sep) == parts
  {
    if |parts| == 1 {
      SplitNoSep(parts[0], sep);
    } else {
      SplitJoin(parts[1..], sep);
      SplitPrefix(parts[0], Join(parts[1..], sep), sep);
      assert parts == [parts[0]] + parts[1..];
    }
  }

  lemma {:induction false} SplitNoSep(s: string, sep: char)
    requires sep !in s
    ensures Split(s, sep) == [s]
  {
    if |s| > 0 {
      SplitNoSep(s[1..], sep);
      assert [s[0]] + s[1..] == s;
    }
  }

  /** Splitting `p + [sep] + t` for a separator-free `p` puts `p` in front of the pieces of `t`. */
  lemma {:induction false} SplitPrefix(p: string, t: string, sep: char)
    requires sep !in p
    ensures Split(p + [sep] + t, sep) == [p] + Split(t, sep)
  {
    if |p| == 0 {
      assert p + [sep] + t == [sep] + t;
      assert ([sep] + t)[1..] == t;
    } else {
      var s := p + [sep] + t;
      SplitPrefix(p[1..], t, sep);
      assert s[0] == p[0] && s[0] != sep;
      assert s[1..] == p[1..] + [sep] + t;
      var rest := Split(s[1..], sep);
      assert rest == [p[1..]] + Split(t, sep);
      assert rest[0] == p[1..] && rest[1..] == Split(t, sep);
      assert Split(s, sep) == [[p[0]] + rest[0]] + rest[1..];
      assert [p[0]] + p[1..] == p;
    }
  }

  predicate IsDigit(c: char) {
    '0' <= c <= '9'
  }

  predicate AllDigits(s: string) {
    forall i :: 0 <= i < |s| ==> IsDigit(s[i])
  }

  function DigitChar(d: nat): (c: char)
    requires d < 10
    ensures IsDigit(c) && (c as int) - ('0' as int) == d
  {
    "0123456789"[d]
  }

  /** Decimal rendering of a non-negative integer (`n.toString()`). */
  function NatToString(n: nat): (r: string)
    ensures |r| >= 1 && AllDigits(r)
    ensures r[0] == '0' ==> r == "0"
  {
    if n < 10 then [DigitChar(n)] else NatToString(n / 10) + [DigitChar(n % 10)]
  }

  /** The value of a string of decimal digits. */
  function DigitsValue(s: string): nat
    requires AllDigits(s)
  {
    if |s| == 0 then 0 else DigitsValue(s[..|s| - 1]) * 10 + ((s[|s| - 1] as int) - ('0' as int))
  }

  /** Reading the decimal rendering back yields the number. */
  lemma {:induction false} NatToStringRoundTrip(n: nat)
    ensures DigitsValue(NatToString(n)) == n
  {
    if n >= 10 {
      NatToStringRoundTrip(n / 10);
      var s := NatToString(n);
      assert s[..|s| - 1] == NatToString(n / 10);
    }
  }

  /** Decimal rendering of an integer, with a leading '-' for negative values. */
  function IntToString(i: int): (r: string)
    ensures |r| >= 1
    ensures i < 0 <==> r[0] == '-'
  {
    if i < 0 then "-" + NatToString(-i) else NatToString(i)
  }
}

=== FILE: translations.dfy ===
/** The translation function `t(key, parameters)` shared by both translation hooks:
    the key is split on `.` and each segment descends one level of the translation
    dictionary; a missing segment, a non-object on the way, or a final value that is not
    a string gives back the key itself. A resolved string with parameters has every
    `{{word}}` placeholder replaced, in one left-to-right pass, by the parameter of that
    name when it is present and truthy. */
module Translations {
  import opened Wrappers
  import opened Text

  /** A value of the translation JSON: strings and objects are distinguished; numbers,
      booleans, arrays and `null` are never descended into or returned and share `TOther`. */
  datatype TValue = TStr(s: string) | TObj(fields: map<string, TValue>) | TOther

  type Dictionary = map<string, TValue>

  /** A parameter value: a string, an integer or a boolean. */
  datatype Param = PStr(s: string) | PNum(n: int) | PBool(b: bool) {
    /** JavaScript truthiness. */
    predicate Truthy() {
      match this
      case PStr(s) => |s| > 0
      case PNum(n) => n != 0
      case PBool(b) => b
    }

    /** `String(value)`, the text a replacement inserts. */
    function Show(): string {
      match this
      case PStr(s) => s
      case PNum(n) => IntToString(n)
      case PBool(b) => if b then "true" else "false"
    }
  }

  /** The descent loop: the value reached by following `path`, or `None` when a segment
      is missing or an intermediate value is not an object. */
  function Resolve(v: TValue, path: seq<string>): (r: Option<TValue>)
    ensures |path| == 0 ==> r == Some(v)
    ensures |path| > 0 && !(v.TObj? && path[0] in v.fields) ==> r.None?
    decreases path
  {
    if |path| == 0 then Some(v)
    else if v.TObj? && path[0] in v.fields then Resolve(v.fields[path[0]], path[1..])
    else None
  }

  /** Following `p + q` is following `p`, then `q` from where `p` led; a path whose
      prefix fails fails as a whole. */
  lemma {:induction false} ResolveAppend(v: TValue, p: seq<string>, q: seq<string>)
    ensures Resolve(v, p + q) == if Resolve(v, p).Some? then Resolve(Resolve(v, p).value, q) else None
    decreases p
  {
    if |p| > 0 {
      assert (p + q)[0] == p[0] && (p + q)[1..] == p[1..] + q;
      if v.TObj? && p[0] in v.fields {
        ResolveAppend(v.fields[p[0]], p[1..], q);
      }
    } else {
      assert p + q == q;
    }
  }

  /** Descent at any depth: when `p` leads to an object holding `k`, the path `p + [k]`
      finds the value stored under `k`. */
  lemma ResolveDescend(v: TValue, p: seq<string>, m: map<string, TValue>, k: string)
    requires Resolve(v, p) == Some(TObj(m)) && k in m
    ensures Resolve(v, p + [k]) == Some(m[k])
  {
    ResolveAppend(v, p, [k]);
    assert Resolve(TObj(m), [k]) == Resolve(m[k], []);
  }

  /** `\w`: ASCII letters, digits and underscore. */
  predicate IsWordChar(c: char) {
    ('a' <= c <= 'z') || ('A' <= c <= 'Z') || ('0' <= c <= '9') || c == '_'
  }

  /** Length of the run of word characters that starts `s`. */
  function WordRun(s: string): (n: nat)
    ensures n <= |s|
    ensures forall i :: 0 <= i < n ==> IsWordChar(s[i])
    ensures n < |s| ==> !IsWordChar(s[n])
  {
    if |s| == 0 || !IsWordChar(s[0]) then 0 else 1 + WordRun(s[1..])
  }

  /** Whether `/\{\{(\w+)\}\}/` matches at the start of `s`. Word characters never
      include `}`, so the greedy run cannot backtrack into a match. */
  predicate PlaceholderAt(s: string) {
    && |s| >= 2 && s[0] == '{' && s[1] == '{'
    && var n := WordRun(s[2..]);
       n > 0 && 2 + n + 2 <= |s| && s[2 + n] == '}' && s[3 + n] == '}'
  }

  /** The length of the placeholder at the start of `s`. */
  function PlaceholderLength(s: string): (n: nat)
    requires PlaceholderAt(s)
    ensures 5 <= n <= |s|
  {
    WordRun(s[2..]) + 4
  }

  /** The word inside the placeholder at the start of `s`. */
  function PlaceholderName(s: string): (name: string)
    requires PlaceholderAt(s)
    ensures |name| >= 1 && forall i :: 0 <= i < |name| ==> IsWordChar(name[i])
  {
    s[2..2 + WordRun(s[2..])]
  }

  /** The replacement for a placeholder: the parameter's text when present and truthy,
      otherwise the placeholder itself. */
  function Replacement(placeholder: string, name: string, params: map<string, Param>): string {
    if name in params && params[name].Truthy() then params[name].Show() else placeholder
  }

  /** `value.replace(/\{\{(\w+)\}\}/g, …)`: one pass, each match replaced once; the
      scan continues after the match, so inserted text is never rescanned. */
  function Interpolate(s: string, params: map<string, Param>): (r: string)
    decreases |s|
  {
    if |s| == 0 then ""
    else if PlaceholderAt(s) then
      var n := PlaceholderLength(s);
      Replacement(s[..n], PlaceholderName(s), params) + Interpolate(s[n..], params)
    else [s[0]] + Interpolate(s[1..], params)
  }

  /** No placeholder has a truthy parameter: nothing changes. */
  predicate NoTruthyParams(params: map<string, Param>) {
    forall name :: name in params ==> !params[name].Truthy()
  }

  /** Without a truthy parameter, interpolation leaves every placeholder intact. */
  lemma {:induction false} InterpolateIdentity(s: string, params: map<string, Param>)
    requires NoTruthyParams(params)
    ensures Interpolate(s, params) == s
    decreases |s|
  {
    if |s| > 0 {
      if PlaceholderAt(s) {
        InterpolateIdentity(s[PlaceholderLength(s)..], params);
        KeepPlaceholder(s, params);
      } else {
        InterpolateIdentity(s[1..], params);
        KeepChar(s, params);
      }
    }
  }

  /** The step of `InterpolateIdentity` at a placeholder: it is kept as written. */
  lemma KeepPlaceholder(s: string, params: map<string, Param>)
    requires PlaceholderAt(s) && NoTruthyParams(params)
    requires Interpolate(s[PlaceholderLength(s)..], params) == s[PlaceholderLength(s)..]
    ensures Interpolate(s, params) == s
  {
    var n := PlaceholderLength(s);
    var name := PlaceholderName(s);
    assert Interpolate(s, params) == Replacement(s[..n], name, params) + s[n..];
    assert !(name in params && params[name].Truthy());
    TakeDrop(s, n);
  }

  /** A sequence is its first `n` elements followed by the rest. */
  lemma TakeDrop<T>(s: seq<T>, n: nat)
    requires n <= |s|
    ensures s[..n] + s[n..] == s
  {
  }

  /** The step of `InterpolateIdentity` at any other character: it is copied. */
  lemma KeepChar(s: string, params: map<string, Param>)
    requires |s| > 0 && !PlaceholderAt(s)
    requires Interpolate(s[1..], params) == s[1..]
    ensures Interpolate(s, params) == s
  {
    assert [s[0]] + s[1..] == s;
  }

  /** A string without `{` has nothing to replace, whatever the parameters. */
  lemma {:induction false} InterpolateWithoutBraces(s: string, params: map<string, Param>)
    requires '{' !in s
    ensures Interpolate(s, params) == s
    decreases |s|
  {
    if |s| > 0 {
      assert s[0] != '{';
      assert '{' !in s[1..] by {
        forall i | 0 <= i < |s[1..]| ensures s[1..][i] != '{' {
          assert s[1..][i] == s[i + 1];
        }
      }
      InterpolateWithoutBraces(s[1..], params);
      assert [s[0]] + s[1..] == s;
    }
  }

  /** A word followed by `}}` is one run of word characters, whatever comes after. */
  lemma {:induction false} WordRunOfName(name: string, rest: string)
    requires forall i :: 0 <= i < |name| ==> IsWordChar(name[i])
    ensures WordRun(name + "}}" + rest) == |name|
    decreases |name|
  {
    if |name| > 0 {
      assert (name + "}}" + rest)[1..] == name[1..] + "}}" + rest;
      WordRunOfName(name[1..], rest);
    }
  }

  /** Text without `{` before any suffix is copied, and the scan goes on in the suffix:
      a placeholder later in the text is replaced as one at its start would be. */
  lemma {:induction false} InterpolatePrefix(p: string, s: string, params: map<string, Param>)
    requires '{' !in p
    ensures Interpolate(p + s, params) == p + Interpolate(s, params)
    decreases |p|
  {
    if |p| > 0 {
      assert '{' !in p[1..] by {
        forall i | 0 <= i < |p[1..]| ensures p[1..][i] != '{' {
          assert p[1..][i] == p[i + 1];
        }
      }
      InterpolatePrefix(p[1..], s, params);
      CopyFirst(p, s, params);
    } else {
      assert p + s == s;
    }
  }

  /** The step of `InterpolatePrefix`: the first character of `p` is copied. */
  lemma CopyFirst(p: string, s: string, params: map<string, Param>)
    requires |p| > 0 && p[0] != '{'
    requires Interpolate(p[1..] + s, params) == p[1..] + Interpolate(s, params)
    ensures Interpolate(p + s, params) == p + Interpolate(s, params)
  {
    var t := p + s;
    assert t[0] == p[0] && t[1..] == p[1..] + s;
    assert !PlaceholderAt(t);
    assert Interpolate(t, params) == [p[0]] + (p[1..] + Interpolate(s, params));
    ConsGlue3(p, Interpolate(s, params));
  }

  /** Regrouping the head of `p` back onto its tail. */
  lemma ConsGlue3(p: string, x: string)
    requires |p| > 0
    ensures [p[0]] + (p[1..] + x) == p + x
  {
    assert [p[0]] + p[1..] == p;
  }

  /** One step of the scan at a placeholder `{{name}}`: its replacement, then the scan
      resumes right after it on the remaining text. */
  lemma PlaceholderStep(name: string, rest: string, params: map<string, Param>)
    requires |name| >= 1 && forall i :: 0 <= i < |name| ==> IsWordChar(name[i])
    ensures Interpolate("{{" + name + "}}" + rest, params)
            == Replacement("{{" + name + "}}", name, params) + Interpolate(rest, params)
  {
    var ph := "{{" + name + "}}";
    var s := ph + rest;
    assert s[2..] == name + "}}" + rest;
    WordRunOfName(name, rest);
    assert s[2 + |name|] == '}' && s[3 + |name|] == '}';
    assert PlaceholderAt(s);
    assert PlaceholderLength(s) == |ph|;
    assert PlaceholderName(s) == name;
    assert s[..|ph|] == ph && s[|ph|..] == rest;
  }

  /** Replacements are not rescanned: a placeholder whose parameter is truthy becomes
      that parameter's text verbatim, even when the text holds placeholders itself, and
      the scan goes on after the original placeholder. */
  lemma NoRescan(name: string, rest: string, params: map<string, Param>)
    requires |name| >= 1 && forall i :: 0 <= i < |name| ==> IsWordChar(name[i])
    requires name in params && params[name].Truthy()
    ensures Interpolate("{{" + name + "}}" + rest, params) == params[name].Show() + Interpolate(rest, params)
  {
    PlaceholderStep(name, rest, params);
  }

  /** A placeholder after plain text, as in `Hello {{name}}`: the text is kept and the
      placeholder is replaced by its truthy parameter's text. */
  lemma ReplaceAfterText(p: string, name: string, rest: string, params: map<string, Param>)
    requires '{' !in p
    requires |name| >= 1 && forall i :: 0 <= i < |name| ==> IsWordChar(name[i])
    requires name in params && params[name].Truthy()
    ensures Interpolate(p + ("{{" + name + "}}" + rest), params) == p + (params[name].Show() + Interpolate(rest, params))
  {
    InterpolatePrefix(p, "{{" + name + "}}" + rest, params);
    NoRescan(name, rest, params);
  }

  /** A placeholder whose parameter is missing or falsy (empty string, zero, false)
      stays literally in place. */
  lemma FalsyParamKeepsPlaceholder(name: string, rest: string, params: map<string, Param>)
    requires |name| >= 1 && forall i :: 0 <= i < |name| ==> IsWordChar(name[i])
    requires name !in params || !params[name].Truthy()
    ensures Interpolate("{{" + name + "}}" + rest, params) == "{{" + name + "}}" + Interpolate(rest, params)
  {
    PlaceholderStep(name, rest, params);
  }

  /** `t(key, parameters)`; `params` is `None` when no parameters object is passed. */
  function T(translations: Dictionary, key: string, params: Option<map<string, Param>>): (r: string)
    ensures var found := Resolve(TObj(translations), Split(key, '.'));
            && (!(found.Some? && found.value.TStr?) ==> r == key)
            && (found.Some? && found.value.TStr? && params.None? ==> r == found.value.s)
            && (found.Some? && found.value.TStr? && params.Some? ==> r == Interpolate(found.value.s, params.value))
  {
    match Resolve(TObj(translations), Split(key, '.'))
    case Some(TStr(s)) => if params.Some? then Interpolate(s, params.value) else s
    case _ => key
  }

  /** Looking up the dotted form of a path of dot-free segments returns the string
      stored at that path, unchanged when there are no truthy parameters. */
  lemma LookupDottedPath(translations: Dictionary, path: seq<string>, params: Option<map<string, Param>>)
    requires |path| >= 1 && forall i :: 0 <= i < |path| ==> '.' !in path[i]
    requires Resolve(TObj(translations), path).Some? && Resolve(TObj(translations), path).value.TStr?
    requires params.None? || NoTruthyParams(params.value)
    ensures T(translations, Join(path, '.'), params) == Resolve(TObj(translations), path).value.s
  {
    SplitJoin(path, '.');
    if params.Some? {
      InterpolateIdentity(Resolve(TObj(translations), path).value.s, params.value);
    }
  }

  /** A key whose first segment is absent falls back to the key. */
  lemma MissingKeyFallsBack(translations: Dictionary, key: string, params: Option<map<string, Param>>)
    requires Split(key, '.')[0] !in translations
    ensures T(translations, key, params) == key
  {
  }

  /** A key naming an object (a section, not a message) falls back to the key. */
  lemma SectionKeyFallsBack(translations: Dictionary, section: string, params: Option<map<string, Param>>)
    requires '.' !in section && section in translations && translations[section].TObj?
    ensures T(translations, section, params) == section
  {
    SplitNoSep(section, '.');
  }
}

=== FILE: utils.dfy ===
/** The pure helpers of lib/utils.ts: client address extraction, percentage rounding,
    the e-mail shape check and the password length rule. */
module Utils {
  import opened Wrappers
  import opened Text

  /** The client address of a request: the first comma-separated entry of a non-empty
      `x-forwarded-for`, trimmed; else a non-empty `x-real-ip` as is; else "unknown".
      A header the request lacks is `None`. */
  function GetClientIP(forwarded: Option<string>, realIp: Option<string>): (r: string)
    ensures Truthy(forwarded) ==> ',' !in r && (|r| > 0 ==> !IsSpace(r[0]) && !IsSpace(r[|r| - 1]))
    ensures !Truthy(forwarded) && Truthy(realIp) ==> r == realIp.value
    ensures !Truthy(forwarded) && !Truthy(realIp) ==> r == "unknown"
  {
    if Truthy(forwarded) then
      var first := Split(forwarded.value, ',')[0];
      var r := Trim(first);
      assert ',' !in r by {
        TrimKeepsOnlyInputChars(first);
      }
      r
    else if Truthy(realIp) then realIp.value
    else "unknown"
  }

  /** Every character of a trimmed string occurs in the original. */
  lemma TrimKeepsOnlyInputChars(s: string)
    ensures forall c :: c in Trim(s) ==> c in s
  {
    var r := Trim(s);
    var a, b :| 0 <= a <= b <= |s| && r == s[a..b];
    SliceChars(s, a, b);
  }

  /** Every element of a slice is an element of the whole. */
  lemma SliceChars<T>(s: seq<T>, a: nat, b: nat)
    requires a <= b <= |s|
    ensures forall x :: x in s[a..b] ==> x in s
  {
    forall i | 0 <= i < b - a ensures s[a..b][i] in s {
      assert s[a..b][i] == s[a + i];
    }
  }

  /** With a non-empty `x-forwarded-for`, the address is the trimmed text before its first
      comma, whatever `x-real-ip` holds. */
  lemma {:induction false} ForwardedForWins(forwarded: string, realIp1: Option<string>, realIp2: Option<string>)
    requires |forwarded| > 0
    ensures GetClientIP(Some(forwarded), realIp1) == GetClientIP(Some(forwarded), realIp2)
    ensures exists n ::
              && 0 <= n <= |forwarded| && ',' !in forwarded[..n]
              && (n == |forwarded| || forwarded[n] == ',')
              && GetClientIP(Some(forwarded), realIp1) == Trim(forwarded[..n])
  {
    SplitFirst(forwarded, ',');
    var first := Split(forwarded, ',')[0];
    assert forwarded[..|first|] == first;
  }

  /** A forwarded header of blanks yields the empty address, not "unknown". */
  lemma BlankForwardedForGivesEmptyAddress()
    ensures GetClientIP(Some(" "), Some("10.0.0.1")) == ""
  {
    SplitNoSep(" ", ',');
    assert AllSpace(" ");
  }

  /** `Math.round(value / total * 100)`, or 0 for a zero total, computed exactly:
      the integer nearest to 100·value/total, halves rounded up. */
  function FormatPercentage(value: int, total: int): (r: int)
    ensures total == 0 ==> r == 0
    ensures total > 0 ==> 2 * total * r <= 200 * value + total < 2 * total * (r + 1)
    ensures total < 0 ==> 2 * total * r >= 200 * value + total > 2 * total * (r + 1)
  {
    if total == 0 then 0
    else if total > 0 then
      var r := (200 * value + total) / (2 * total);
      DivBounds(200 * value + total, 2 * total);
      r
    else
      var r := (-200 * value - total) / (-2 * total);
      DivBounds(-200 * value - total, -2 * total);
      r
  }

  lemma DivBounds(n: int, d: int)
    requires d > 0
    ensures d * (n / d) <= n < d * (n / d + 1)
  {
  }

  /** Cancels a positive factor from both sides of a strict inequality. */
  lemma CancelLt(a: int, x: int, y: int)
    requires a > 0 && a * x < a * y
    ensures x < y
  {
    assert a * y - a * x == a * (y - x);
  }

  /** For a share of a positive total, the percentage lies in [0, 100] and is 100 for the
      whole. */
  lemma PercentageInRange(value: int, total: int)
    requires 0 <= value <= total && total > 0
    ensures 0 <= FormatPercentage(value, total) <= 100
    ensures value == total ==> FormatPercentage(value, total) == 100
  {
    var r := FormatPercentage(value, total);
    var a := 2 * total;
    assert a * 0 < a * (r + 1);
    CancelLt(a, 0, r + 1);
    assert 200 * value <= 200 * total;
    assert a * r < a * 101;
    CancelLt(a, r, 101);
    if value == total {
      assert a * 100 < a * (r + 1);
      CancelLt(a, 100, r + 1);
    }
  }

  /** A larger share of the same positive total never rounds to a smaller percentage. */
  lemma PercentageMonotonic(v1: int, v2: int, total: int)
    requires v1 <= v2 && total > 0
    ensures FormatPercentage(v1, total) <= FormatPercentage(v2, total)
  {
    var r1 := FormatPercentage(v1, total);
    var r2 := FormatPercentage(v2, total);
    assert 200 * v1 <= 200 * v2;
    assert (2 * total) * r1 < (2 * total) * (r2 + 1);
    CancelLt(2 * total, r1, r2 + 1);
  }

  /** A character allowed by the class `[^\s@]`. */
  predicate PlainChar(c: char) {
    !IsSpace(c) && c != '@'
  }

  /** Position of the first occurrence of `c`. */
  function IndexOf(s: string, c: char): (r: Option<nat>)
    ensures r.Some? ==> r.value < |s| && s[r.value] == c && c !in s[..r.value]
    ensures r.None? ==> c !in s
  {
    if |s| == 0 then None
    else if s[0] == c then Some(0)
    else
      match IndexOf(s[1..], c)
      case None => None
      case Some(k) =>
        assert s[..k + 1] == [s[0]] + s[1..][..k];
        Some(k + 1)
  }

  /** The shape check of `validateEmail`: no white space, exactly one '@' with something
      before it, and a '.' after it that is neither the first nor the last character of
      the domain. */
  function ValidateEmail(email: string): bool {
    match IndexOf(email, '@')
    case None => false
    case Some(at) =>
      var domain := email[at + 1..];
      && (forall i :: 0 <= i < |email| ==> !IsSpace(email[i]))
      && '@' !in domain
      && at > 0
      && |domain| >= 3 && '.' in domain[1..|domain| - 1]
  }

  /** Whole-string match of the pattern `^[^\s@]+@[^\s@]+\.[^\s@]+$`. */
  ghost predicate MatchesEmailPattern(s: string) {
    exists at, dot ::
      && 0 < at && at + 1 < dot && dot + 1 < |s|
      && s[at] == '@' && s[dot] == '.'
      && forall k :: 0 <= k < |s| && k != at ==> PlainChar(s[k])
  }

  /** Every string the shape check accepts matches the regular expression. */
  lemma ValidateEmailSound(s: string)
    requires ValidateEmail(s)
    ensures MatchesEmailPattern(s)
  {
    var at := IndexOf(s, '@').value;
    var domain := s[at + 1..];
    var inner := domain[1..|domain| - 1];
    var j :| 0 <= j < |inner| && inner[j] == '.';
    var dot := at + 2 + j;
    assert s[dot] == '.';
    forall k | 0 <= k < |s| && k != at ensures PlainChar(s[k]) {
      if k < at {
        assert s[k] in s[..at];
      } else {
        assert s[k] == domain[k - at - 1];
      }
    }
  }

  /** Every string the regular expression matches passes the shape check. */
  lemma ValidateEmailComplete(s: string)
    requires MatchesEmailPattern(s)
    ensures ValidateEmail(s)
  {
    var at, dot :| 0 < at && at + 1 < dot && dot + 1 < |s|
      && s[at] == '@' && s[dot] == '.'
      && forall k :: 0 <= k < |s| && k != at ==> PlainChar(s[k]);
    OnlyAt(s, at);
    DomainShape(s, at, dot);
    assert forall i :: 0 <= i < |s| ==> !IsSpace(s[i]) by {
      forall i | 0 <= i < |s| ensures !IsSpace(s[i]) {
        if i != at { assert PlainChar(s[i]); }
      }
    }
  }

  /** The part after the only '@' has no '@' and an inner '.'. */
  lemma DomainShape(s: string, at: nat, dot: nat)
    requires at + 1 < dot && dot + 1 < |s| && s[dot] == '.'
    requires forall k :: 0 <= k < |s| && k != at ==> PlainChar(s[k])
    ensures var domain := s[at + 1..]; '@' !in domain && |domain| >= 3 && '.' in domain[1..|domain| - 1]
  {
    var domain := s[at + 1..];
    forall m | 0 <= m < |domain| ensures domain[m] != '@' {
      assert domain[m] == s[at + 1 + m];
    }
    assert domain[1..|domain| - 1][dot - at - 2] == '.';
  }

  /** The only '@' of a string is the one `IndexOf` finds. */
  lemma OnlyAt(s: string, at: nat)
    requires at < |s| && s[at] == '@'
    requires forall k :: 0 <= k < |s| && k != at ==> PlainChar(s[k])
    ensures IndexOf(s, '@') == Some(at)
  {
    assert '@' in s;
    var i := IndexOf(s, '@').value;
    assert !PlainChar(s[i]);
  }

  /** The shape check accepts exactly the strings the regular expression matches. */
  lemma ValidateEmailMatchesPattern(s: string)
    ensures ValidateEmail(s) <==> MatchesEmailPattern(s)
  {
    if ValidateEmail(s) {
      ValidateEmailSound(s);
    }
    if MatchesEmailPattern(s) {
      ValidateEmailComplete(s);
    }
  }

  /** `validatePassword`: at least six characters. */
  function ValidatePassword(password: string): bool {
    |password| >= 6
  }
}

=== FILE: wrappers.dfy ===
/** The optional-value datatype shared by every module: JavaScript's `null`/`undefined`
    become `None`, a present value becomes `Some`. */
module Wrappers {

  datatype Option<+T> = None | Some(value: T) {

    /** Returns the value encapsulated in Some or a default value if None. */
    function GetOr(default: T): T {
      match this
      case Some(v) => v
      case None => default
    }
  }

  /** JavaScript truthiness of an optional string: present and non-empty. */
  predicate Truthy(s: Option<string>) {
    s.Some? && |s.value| > 0
  }
}
